=== FILE: README.md ===
# docuparse-api document pipeline in Dafny

This project models the document-processing core of docuparse-api. An
upload (a PDF or an image) is routed by its file extension. A PDF with a
usable text layer is read directly. A scanned PDF is rasterised page by
page and each page is run through OCR. When that fails, the PDF falls back
to its text layer and the result carries a warning. The text's language is
detected, and for a scanned PDF it is decided by a majority vote over the
pages. The text is classified by keywords, and for invoices and receipts
three fields are pulled out with regular expressions.

The external engines are fields of the `Engines.Engines` datatype. Each is
a total function returning `Result`, and a thrown error becomes `Err` with
its message. The engines are:

- the PDF text-layer parser (`pdf-parse`);
- the PDF loader (`pdf-lib`);
- the per-page renderer;
- the OCR recogniser (`tesseract.js`);
- the language identifier (`franc`).

Modules, one file each:

| module | file | models |
|---|---|---|
| `Results` | results.dfy | `Option`, `Result`, re-throwing with a message prefix |
| `JsStrings` | js_strings.dfy | `trim`, `length` in UTF-16 units, `toLowerCase`, `join` |
| `Substring` | substring.dfy | `String.prototype.includes` |
| `Regex` | regex.dfy | a backtracking matcher for the regular-expression fragment the field patterns use |
| `Paths` | paths.dfy | `path.join`, `path.extname` (POSIX), decimal formatting of page numbers |
| `Engines` | engines.dfy | the external engines |
| `OcrService` | ocr.dfy | `detectLanguage`, `convertToTesseractLanguage`, `performOcr` |
| `DocumentClassifier` | classifier.dfy | `classifyDocument` |
| `FieldExtractor` | fields.dfy | `extractFields` |
| `PdfService` | pdf.dfy | `isTextBasedPdf`, `extractTextFromPdf`, `convertPdfToImages` |
| `LanguageVote` | vote.dfy | the per-document language vote in `processDocument` |
| `DocumentService` | pipeline.dfy | `processDocument` |

Three behaviours of the code to note:

- The invoice and receipt number patterns require one of `no`, `number` or
  `#` after the word; that token is not optional.
- The fallback after a failed scanned attempt can still fail. If the
  direct text extraction it falls back to throws, the error goes through
  the top-level wrapper (`DocumentService.FallbackDocument`).
- A zero-page scanned PDF gets no language at all. The model keeps this:
  the language of a result is an `Option`, and `None` stands for
  `undefined` (`DocumentService.ZeroPageScannedDocument`; see
  "## Findings").

Strings are `seq<char>` (Unicode scalar values). JavaScript's `length`
counts UTF-16 code units, so `JsStrings.JsLength` counts a character
outside the Basic Multilingual Plane twice. The whitespace set of `trim`
and of `\s` is the exact ECMAScript set. With the `i` flag and without the
`u` flag, case folding never maps a non-ASCII character onto an ASCII one.
Folding only ASCII letters is therefore exact for every pattern used here.

## Model

| member | source | states |
|---|---|---|
| Results.Wrap | src/document/services/document.service.ts:144-147 | A re-thrown error succeeds exactly when the original does and keeps its value. Its message is the prefix followed by the original message. |
| JsStrings.Trim | src/ocr/services/ocr.service.ts:30 | `trim` returns a slice of the input with only whitespace cut from each end, and the result neither starts nor ends with whitespace. |
| JsStrings.TrimNoWhitespace | src/ocr/services/ocr.service.ts:133 | Trimming a string with no whitespace returns it unchanged. |
| JsStrings.JsLength | src/document/services/pdf.service.ts:24 | `length` lies between the character count and twice the character count. |
| JsStrings.JsLengthAppend | src/ocr/services/ocr.service.ts:30 | `length` is additive over concatenation. |
| JsStrings.JsLengthOfBmp | src/document/services/pdf.service.ts:24 | `length` equals the character count exactly when no character lies outside the Basic Multilingual Plane. |
| JsStrings.ToLower | src/ocr/services/ocr.service.ts:107 | Lower-casing keeps the length and lower-cases every character in place. |
| JsStrings.LowerOfEqualIgnoringCase | src/document/services/document.service.ts:58 | Strings that differ only in letter case lower-case to the same string. |
| JsStrings.LowerIsEqualIgnoringCase | src/ocr/services/ocr.service.ts:107 | Lower-casing a string changes nothing but letter case. |
| JsStrings.JoinLength | src/document/services/document.service.ts:93 | The joined text is as long as all parts plus one separator between each pair of neighbours. |
| JsStrings.JoinWith | src/document/services/document.service.ts:93 | `parts.join(sep)`: the parts in order with the separator between each pair of neighbours, "" for no parts. Its contents are stated by JoinLength, JoinPartAt and JoinSeparatorAt. |
| JsStrings.JoinPartAt | src/document/services/document.service.ts:93 | Page `i`'s text appears verbatim in the joined text, after every earlier page and its separator. |
| JsStrings.JoinSeparatorAt | src/document/services/document.service.ts:93 | Between the texts of pages `i` and `i + 1` the joined text holds exactly the separator. |
| Substring.IndexOf | src/ocr/services/ocr.service.ts:110 | The result is the leftmost occurrence at or after the start position, or none when there is no occurrence. |
| Substring.Includes | src/ocr/services/ocr.service.ts:110-116 | `includes` is true exactly when the word occurs somewhere. |
| Substring.ContainsPrefix | src/ocr/services/ocr.service.ts:110 | A text containing a word contains each of its prefixes. So "invoice number" can never be the keyword that decides the invoice group, because "invoice" matches first. |
| DocumentClassifier.MentionsAny | src/ocr/services/ocr.service.ts:110 | A chain of `includes` calls joined by `\|\|` is true exactly when some keyword of the group occurs. |
| DocumentClassifier.Classify | src/ocr/services/ocr.service.ts:106-121 | The category is one of the five. It is a group's category exactly when that group matches and no earlier group does. It is "unknown" exactly when no group matches. |
| DocumentClassifier.ClassifyIgnoresCase | src/ocr/services/ocr.service.ts:107 | Texts that differ only in letter case get the same category. |
| DocumentClassifier.InvoiceOutranksOtherGroups | src/ocr/services/ocr.service.ts:110-111 | Any text mentioning "invoice" is an invoice, whatever else it contains, including "terms and conditions". |
| DocumentClassifier.BareIdMeansIdentification | src/ocr/services/ocr.service.ts:116-117 | A text that misses the first three groups but contains the letters "id" anywhere is an identification. |
| DocumentClassifier.SaidIsIdentification | src/ocr/services/ocr.service.ts:116 | The word "said" is classified as an identification document. |
| Regex.RunLength | src/ocr/services/ocr.service.ts:131 | The greedy run of a class from a position holds only class characters and stops at the text's end or before a character outside the class. |
| Regex.RunWithinLongest | src/ocr/services/ocr.service.ts:131 | No run of the class from that position is longer than the greedy run. |
| Regex.RunLengthOf | src/ocr/services/ocr.service.ts:131 | A maximal run has exactly the length the greedy scan computes. |
| Regex.MatchAt | src/ocr/services/ocr.service.ts:131 | The backtracking engine behind `text.match` at one position: the items in order, then the `+` capture. What it returns is stated by MatchAtCorrect. |
| Regex.MatchAtCorrect | src/ocr/services/ocr.service.ts:131 | Matching at a position returns the match a backtracking engine reports there: a real match, tried before every other (leftmost alternative, most repetitions, optional character taken, longest capture). It fails only when nothing matches there. |
| Regex.TryWordsCorrect | src/ocr/services/ocr.service.ts:131 | Alternatives `(?:no\|number\|#)` are tried left to right. The first that lets the rest match is taken, and failure means no alternative from there on leads to a match. |
| Regex.TryRepetitionsCorrect | src/ocr/services/ocr.service.ts:143 | A `[...]*` tries the most repetitions first and backs off one at a time. Failure means every match uses more repetitions than were available. |
| Regex.OptCorrect | src/ocr/services/ocr.service.ts:143 | `[$€£]?` takes the character when the rest can match after it, and otherwise matches without it. |
| Regex.CaptureInClass | src/ocr/services/ocr.service.ts:131-143 | Every match captures a non-empty stretch of text drawn only from the group's class. |
| Regex.CaptureIsLongest | src/ocr/services/ocr.service.ts:131-143 | The reported capture stops only at the text's end or before a character outside the class, because the `+` group is greedy. |
| Regex.FirstMatch | src/ocr/services/ocr.service.ts:131 | `text.match` without the `g` flag reports the leftmost start position with a match, using the engine's preferred match there. It reports none exactly when no position matches. |
| Regex.Capture | src/ocr/services/ocr.service.ts:132 | There is a capture exactly when the pattern matches somewhere. The capture is the stretch of text the group spans in the first match, and it is non-empty and drawn from the group's class. |
| Regex.NoMatchWithoutFirstWord | src/ocr/services/ocr.service.ts:131 | A pattern that starts with a word cannot match where the word does not occur. |
| Regex.FirstMatchSkips | src/ocr/services/ocr.service.ts:143 | The search passes over positions where nothing matches. |
| FieldExtractor.TrimCapture | src/ocr/services/ocr.service.ts:133 | `.trim()` never changes a captured value, because no capture class holds whitespace. |
| FieldExtractor.NumberPattern | src/ocr/services/ocr.service.ts:131 | `/<word>\s*(?:no\|number\|#)[:.\s]*([A-Za-z0-9-]+)/i` (with word "invoice" here and "receipt" at line 151): the word, spaces, the first workable alternative, separators `[:.\s]`, then a capture from `[A-Za-z0-9-]`. |
| FieldExtractor.DatePattern | src/ocr/services/ocr.service.ts:137 | `/date[:.\s]*([\d\/\-\.]+)/i` (also at line 157): the word "date", separators, then a capture of digits, `/`, `-` and `.`. |
| FieldExtractor.TotalPattern | src/ocr/services/ocr.service.ts:143 | `/total[:.\s]*[$€£]?[\s]*([\d,.]+)/i` (also at line 163): the word "total", separators, an optional currency sign, spaces, then a capture of digits, `,` and `.`. |
| FieldExtractor.PutCapture | src/ocr/services/ocr.service.ts:131-134 | The key is added exactly when the pattern matches, with the first match's capture as its value. The value is non-empty and drawn from the class. No other key changes. |
| FieldExtractor.ExtractThree | src/ocr/services/ocr.service.ts:129-147 | The keys are a subset of the number key, "date" and "totalAmount". Each is present exactly when its pattern matches somewhere. Its value is the group's capture in the pattern's first match, non-empty and drawn from its capture class. |
| FieldExtractor.ExtractFields | src/ocr/services/ocr.service.ts:124-177 | Any type other than exactly "invoice" or "receipt" (compared case-sensitively) gives no fields. Invoices and receipts get their own three keys, each present exactly when its pattern matches. Each value is the capture of that pattern's first match, drawn from `[A-Za-z0-9-]`, `[\d/\-.]` and `[\d,.]`. |
| FieldExtractor.ExampleNumberCapture | src/ocr/services/ocr.service.ts:131 | In "Invoice Number: INV-1023 Total: $452.10" the number pattern captures "INV-1023". |
| FieldExtractor.ExampleTotalCapture | src/ocr/services/ocr.service.ts:143 | In the same text the total pattern first matches at "Total" and captures "452.10". |
| FieldExtractor.InvoiceExample | src/ocr/services/ocr.service.ts:129-147 | Read as an invoice, that text yields invoiceNumber "INV-1023" and totalAmount "452.10". |
| OcrService.ToTesseractLanguage | src/ocr/services/ocr.service.ts:53-73 | "cmn" becomes "chi_sim". Every other code comes back unchanged, whether or not the table lists it. A non-empty code never maps to an empty one. |
| OcrService.ToTesseractIdempotent | src/ocr/services/ocr.service.ts:54-72 | Mapping twice is the same as mapping once. |
| OcrService.TooShort | src/ocr/services/ocr.service.ts:30 | `!text \|\| text.trim().length < 20`: the text is empty, or under 20 UTF-16 units once trimmed. |
| OcrService.DetectLanguage | src/ocr/services/ocr.service.ts:27-50 | Absent, empty or short-once-trimmed text is "eng". An identifier error, an empty answer or "und" also gives "eng". Otherwise the answer is the mapped identifier code, and it is never empty. |
| OcrService.ShortTextIgnoresIdentifier | src/ocr/services/ocr.service.ts:30-32 | For short text the identifier's behaviour makes no difference. |
| OcrService.DetectedIsEnglishOrMapped | src/ocr/services/ocr.service.ts:39-48 | Every detected language is "eng" or the mapping of what the identifier said. |
| OcrService.TrimShortens | src/ocr/services/ocr.service.ts:30 | Trimming never makes `length` larger. |
| OcrService.ShortUntrimmedIsEnglish | src/ocr/services/ocr.service.ts:30-32 | Text under 20 UTF-16 units before trimming is "eng". |
| OcrService.OcrLanguage | src/ocr/services/ocr.service.ts:78 | A non-empty hint is used as given; an absent or empty hint gives "eng". |
| OcrService.PerformOcr | src/ocr/services/ocr.service.ts:75-103 | OCR succeeds exactly when the recogniser (creating the worker, recognising, terminating) succeeds in the hinted language. The text is the recogniser's, and the language is detected from that text. A failure's message is "Failed to perform OCR: " followed by the cause. |
| OcrService.EmptyHintIsNoHint | src/ocr/services/ocr.service.ts:78 | An empty hint behaves exactly like no hint. |
| Paths.Decimal | src/document/services/pdf.service.ts:97 | A page number is formatted as a non-empty string of digits with no leading zero. |
| Paths.DecimalRoundTrip | src/document/services/pdf.service.ts:97 | Reading a formatted number back gives the number. |
| Paths.DecimalInjective | src/document/services/pdf.service.ts:97 | Different page numbers are formatted differently. |
| Paths.NameEnd | src/document/services/document.service.ts:58 | `extname` ignores trailing slashes. |
| Paths.Basename | src/document/services/document.service.ts:58 | The last name of a path contains no slash. |
| Paths.BasenameIsLastName | src/document/services/document.service.ts:58 | The last name is the stretch of the path that starts at the beginning or just after a slash and ends where the trailing slashes begin. |
| Paths.LastDot | src/document/services/document.service.ts:58 | The last dot of a name, with no dot after it, or none when the name has no dot. |
| Paths.ExtName | src/document/services/document.service.ts:58 | The extension is empty, or it is a suffix of the last name that starts with its only dot. A last name with a dot after its first character has an extension, except "..", which has none. |
| Paths.ExtNameOfSuffix | src/document/services/document.service.ts:58 | A name with a non-empty stem, a dot and a dot-free tail has that tail, with the dot, as its extension. |
| Paths.NoExtensionWithoutInnerDot | src/document/services/document.service.ts:58 | A name with no dot, or whose only dot comes first (".env"), has no extension. |
| PdfService.TextLayerVerdict | src/document/services/pdf.service.ts:20-40 | A PDF is text-based exactly when it parsed, has at least 50 characters, and `textLength / pageCount` exceeds 100 under JavaScript number division (zero pages gives Infinity). This is decided by integer cross-multiplication. |
| PdfService.CrossMultiplied | src/document/services/pdf.service.ts:33-34 | For a positive page count the quotient exceeds 100 exactly when the length exceeds 100 times the page count. |
| PdfService.PagePath | src/document/services/pdf.service.ts:97 | `path.join(outputDir, ...)` of the template `page-${i + 1}.png`: page `i` (from 0) is written to `page-<i+1>.png` in the output folder. Distinctness is stated by PagePathsDistinct. |
| PdfService.IsTextBasedPdf | src/document/services/pdf.service.ts:20-40 | The verdict is taken on the parser's report, and a text-based verdict implies the parse succeeded. |
| PdfService.UnparsableIsScanned | src/document/services/pdf.service.ts:35-39 | A parser failure gives "scanned" and is never propagated. |
| PdfService.ShortTextIsScanned | src/document/services/pdf.service.ts:28-30 | Fewer than 50 characters is scanned, whatever the page count. |
| PdfService.HundredPerPageIsScanned | src/document/services/pdf.service.ts:33-34 | Exactly 100 characters per page is scanned. |
| PdfService.NoPagesIsTextBased | src/document/services/pdf.service.ts:33-34 | Zero pages with at least 50 characters is text-based. |
| PdfService.VerdictMonotoneInLength | src/document/services/pdf.service.ts:28-34 | For a fixed page count, more text never turns text-based into scanned. |
| PdfService.ExtractTextFromPdf | src/document/services/pdf.service.ts:47-55 | The parser's text is returned unchanged. A failure's message is "Failed to extract text from PDF: " followed by the cause. |
| PdfService.TextBasedIsExtractable | src/document/services/pdf.service.ts:47-55 | Extraction of a PDF judged text-based never fails. |
| PdfService.PagePathsDistinct | src/document/services/pdf.service.ts:97 | Different pages are written to different files. |
| PdfService.RenderFrom | src/document/services/pdf.service.ts:76-117 | The loop succeeds exactly when every remaining page renders. It then yields one path per page in index order. Otherwise it fails with the error of the first failing page. |
| PdfService.ConvertPdfToImages | src/document/services/pdf.service.ts:63-124 | The conversion succeeds exactly when the PDF loads and every page renders. It then yields exactly one path per page, the i-th being `<outputDir>/page-<i+1>.png`. Otherwise it returns no paths and an error prefixed "Failed to convert PDF to images: ". |
| PdfService.ConvertedPathsDistinct | src/document/services/pdf.service.ts:97-114 | The paths of a successful conversion are pairwise distinct. |
| LanguageVote.Count | src/document/services/document.service.ts:97-99 | The number of pages with a language is positive exactly when some page has it. |
| LanguageVote.FirstIndex | src/document/services/document.service.ts:97-99 | The first page with a language, or the page count when there is none. |
| LanguageVote.Bump | src/document/services/document.service.ts:98 | Counting a page raises its language's count by one (starting from 1), appends a new language as the last key, and leaves every other count alone. |
| LanguageVote.Tally | src/document/services/document.service.ts:96-99 | The counts object lists exactly the keys that have counts. |
| LanguageVote.TallyCounts | src/document/services/document.service.ts:96-99 | After counting, the keys are exactly the pages' languages, and each value is the number of pages with that language. |
| LanguageVote.TallyOrderAt | src/document/services/document.service.ts:96-101 | `Object.entries` lists the languages in the order they first appear among the pages. |
| LanguageVote.Entries | src/document/services/document.service.ts:101 | `Object.entries` gives one `[language, count]` pair per key, in key order. |
| LanguageVote.InsertDesc | src/document/services/document.service.ts:102 | One insertion step keeps the same entries, and the new head is the inserted entry or the old head. |
| LanguageVote.InsertDescSorted | src/document/services/document.service.ts:102 | Inserting into a sequence sorted by decreasing count keeps it sorted. |
| LanguageVote.SortDesc | src/document/services/document.service.ts:102 | The sort returns a permutation of the entries, ordered by decreasing count. |
| LanguageVote.FirstMax | src/document/services/document.service.ts:102 | The first entry with the largest count. |
| LanguageVote.SortHead | src/document/services/document.service.ts:102-103 | The stable sort puts the first of the most frequent entries at the head. |
| LanguageVote.MajorityAsWritten | src/document/services/document.service.ts:96-103 | The vote as written yields no language (`undefined`) exactly when there are no pages. |
| LanguageVote.WinnerBeats | src/document/services/document.service.ts:101-103 | The winning key's count is at least every other key's count, and it comes first among the keys it ties with. |
| LanguageVote.MajorityIsFirstMostFrequent | src/document/services/document.service.ts:96-103 | With at least one page, the vote picks a language of maximum page count, and among tied languages the one met on the earliest page. |
| LanguageVote.NoPagesNoLanguage | src/document/services/document.service.ts:101-103 | A scanned PDF with no pages leaves the language undefined. |
| LanguageVote.MajorityLanguage | src/document/services/document.service.ts:96-103 | The corrected vote gives "eng" with no pages, and otherwise the first most frequent language. |
| LanguageVote.FirstMostFrequentUnique | src/document/services/document.service.ts:101-103 | At most one language is the first most frequent, so the tie-break decides. |
| LanguageVote.SinglePageLanguage | src/document/services/document.service.ts:96-103 | One page yields that page's language. |
| LanguageVote.MajorityNonEmpty | src/document/services/document.service.ts:96-103 | If no page's language is empty, neither is the vote's. |
| DocumentService.RouteOf | src/document/services/document.service.ts:74-120 | ".pdf" goes to the PDF branch, exactly the six image extensions go to OCR, and everything else is unsupported. |
| DocumentService.RouteIgnoresCase | src/document/services/document.service.ts:58 | The route depends on the extension only up to letter case. |
| DocumentService.FileExtension | src/document/services/document.service.ts:58 | `path.extname(file.originalname).toLowerCase()`: as long as the extension, equal to it up to case, empty or starting with its only dot, and holding no slash. |
| DocumentService.OriginalPath | src/document/services/document.service.ts:67 | The original is saved as `original<ext>` in the document's folder `<uploadsDir>/<documentId>`, the path that image OCR reads. |
| DocumentService.PagesDir | src/document/services/document.service.ts:85 | Page images go to `pages` in the document's folder. |
| DocumentService.OcrPages | src/document/services/document.service.ts:88-90 | `Promise.all` succeeds exactly when every page's OCR succeeds. It then yields the pages' results in page order, and otherwise the error of a failing page. |
| DocumentService.PageTexts | src/document/services/document.service.ts:93 | One text per page, in page order. |
| DocumentService.PageLanguages | src/document/services/document.service.ts:97-99 | One detected language per page, in page order. |
| DocumentService.ReadScanned | src/document/services/document.service.ts:83-103 | The scanned attempt succeeds exactly when the conversion and every page's OCR succeed. Its text is the page texts joined by "\n\n" in page order, its language is the vote as written (`undefined` exactly when there are no pages), and it has no warnings. |
| DocumentService.ReadTextLayer | src/document/services/document.service.ts:78-81 | Reading the text layer succeeds exactly when the parser does. It gives the parser's text, the language detected from it and the given warnings; otherwise the extraction error. |
| DocumentService.ReadPdf | src/document/services/document.service.ts:76-111 | A text-based PDF gives its text layer with no warnings. Otherwise a successful scanned attempt is the result, and a failed one falls back to the text layer with the one fallback warning, failing only when the text layer does. |
| DocumentService.ReadDocument | src/document/services/document.service.ts:74-120 | A PDF goes through the PDF branch. An image is recognised from where it was saved, succeeding exactly when OCR does, with OCR's text and language and no warnings. Any other extension fails with "Unsupported file type: " and the extension. |
| DocumentService.Assemble | src/document/services/document.service.ts:57-143 | The result fails exactly when reading fails, with the same message. On success it has the read text and language, the hinted or classified type and its fields, no page count, the upload's metadata, and warnings present exactly when some were raised. |
| DocumentService.DocumentType | src/document/services/document.service.ts:123 | A non-empty hint is the type; otherwise the classifier decides. |
| DocumentService.ProcessDocument | src/document/services/document.service.ts:52-148 | The call fails exactly when reading the document fails, with "Failed to process document: " before the cause. On success the result has the read text and language, the hinted or classified type and its fields. `pages` is unset, the metadata is copied from the upload, and the warnings are present exactly when some were raised. |
| DocumentService.UnsupportedType | src/document/services/document.service.ts:118-120 | Any other extension fails with "Failed to process document: Unsupported file type: <ext>". |
| DocumentService.ImageDocument | src/document/services/document.service.ts:113-117 | An image is recognised once, from where it was saved, in the hinted language. The text is the recogniser's and the language is detected from it. There are no warnings, and an OCR failure is wrapped twice. |
| DocumentService.TextBasedDocument | src/document/services/document.service.ts:78-81 | A text-based PDF never fails. Its text is the text layer, its language is detected from that text, and it has no warnings. |
| DocumentService.ScannedDocument | src/document/services/document.service.ts:83-103 | A fully processed scanned PDF has one image per page. Its text is the pages' OCR texts joined by "\n\n" in page order, its language is the vote over the pages as written, and it has no warnings. |
| DocumentService.FallbackDocument | src/document/services/document.service.ts:104-111 | When rasterising or any page's OCR fails, the result has exactly the one warning, the text-layer text and its detected language. Only a failing text layer makes it an error. |
| DocumentService.WarningsOnlyOnFallback | src/document/services/document.service.ts:136 | A successful result has warnings exactly when a scanned PDF fell back to its text layer. |
| DocumentService.ScannedLanguageIsVote | src/document/services/document.service.ts:96-103 | A fully processed scanned PDF has no language exactly when it has no pages. Otherwise its language is the first most frequent page language, which is also what the corrected vote gives. |
| DocumentService.ZeroPageScannedDocument | src/document/services/document.service.ts:76-103 | A PDF that loads with zero pages and an empty text layer resolves with empty text, no language (`undefined`) and no warnings. |

## Left out

- Filesystem effects are not modelled. This covers creating the document folder and the page folder, saving the original, and writing and deleting the temporary and image files. Paths are only strings. The rasteriser reads back the saved original, and the model passes it the upload's bytes instead. A failure to create the document folder or to save the original (document.service.ts:64 and :68) is not modelled; its error would reach the top-level wrapper. The temporary and image writes and the unlink inside `convertPdfToImages` are modelled as failures of the page renderer. A failure to create the page folder is not modelled separately: it would be a conversion failure, and so lead to the text-layer fallback, which an error from the PDF loader already represents.
- `path.join` normalisation (collapsing `.`, `..` and repeated slashes) is not modelled. `Paths.Join` just puts a slash between the directory and the name.
- The random document identifier and the uploads directory are parameters of `DocumentService.ProcessDocument`.
- Logging and the loading of `franc` are left out because neither affects a result. `createWorker`, `recognize` and `terminate` are one engine call that fails when any of them fails. This is exact, because the language detection that runs between recognising and terminating never throws. The identifier's `minLength` option is fixed inside its engine.
- The content of the rendered images is left out, since the source paints a blank canvas. Each page's work before its path is recorded (copy, save, temporary file, blank PNG) is one engine call.
- `Promise.all` is modelled as an in-order map that fails when any page fails. With real concurrency the error reported is the first rejection in time, not in page order. The caller only catches that error and never shows its message.
- Keys inherited from `Object.prototype` are left out. With them, `langMap["constructor"]` would be a function, and a `languageCounts` key like `"__proto__"` behaves differently. Integer-like keys, which `Object.entries` lists first, are left out too. Identifier codes are three-letter ISO 639-3 codes, so none of these arise.
- An absent `text` in `detectLanguage` is not a separate case: the model takes strings only, and the `!text` test is modelled for the empty string, which behaves the same.
- JsStrings.ToLower: only ASCII letters are lowered. Routing is exact, because every routed extension is ASCII. The extension echoed in the "Unsupported file type" message may differ from JavaScript's for non-ASCII letters.
- PdfService.ExceedsPerPage uses exact real division. JavaScript's floating-point quotient agrees for all lengths and page counts below 2^53.
- Idempotence of `processDocument` across calls holds because the model is a function of its inputs. Across two document identifiers it would also need the recogniser to read the same bytes at two different paths, which a path-only model cannot express.

## Findings

| source | as written | input that shows it | evidently intended | confidence | as-written member | corrected member |
|---|---|---|---|---|---|---|
| src/document/services/document.service.ts:101-103 | The scanned branch takes element `[0]` of the sorted language entries. With no pages there are no entries, so the language is `undefined` although the result type says `string`. | A PDF that loads with zero pages: it has no text layer, so it is judged scanned. Rasterising yields no images, and the joined text is "". | A language string, the default "eng" as everywhere else in the pipeline. | not executed | LanguageVote.MajorityAsWritten (with LanguageVote.NoPagesNoLanguage and DocumentService.ZeroPageScannedDocument) | LanguageVote.MajorityLanguage |

The pipeline keeps the behaviour as written, so a result's language is an
`Option`. `LanguageVote.MajorityLanguage` is the corrected vote.
`DocumentService.ScannedLanguageIsVote` shows that the two agree on every
scanned PDF with at least one page.

=== FILE: classifier.dfy ===
/** Keyword classification of extracted text (`OcrService.classifyDocument`). */
module DocumentClassifier {
  import opened JsStrings
  import opened Substring

  const InvoiceKeywords: seq<string> := ["invoice", "bill to", "invoice number"]
  const ReceiptKeywords: seq<string> := ["receipt", "payment received", "amount paid"]
  const ContractKeywords: seq<string> := ["contract", "agreement", "terms and conditions"]
  const IdentificationKeywords: seq<string> := ["id", "identification", "passport", "driver"]

  /** The categories in the order they are tried, each with its keywords. */
  const Categories: seq<string> := ["invoice", "receipt", "contract", "identification"]
  const KeywordGroups: seq<seq<string>> :=
    [InvoiceKeywords, ReceiptKeywords, ContractKeywords, IdentificationKeywords]
  const Unknown: string := "unknown"

  /** Some keyword of group `g` occurs in `lower`. */
  ghost predicate GroupMatches(lower: string, g: nat)
    requires g < |KeywordGroups|
  {
    exists k :: 0 <= k < |KeywordGroups[g]| && Contains(lower, KeywordGroups[g][k])
  }

  /** `lower.includes(k1) || lower.includes(k2) || ...` */
  function MentionsAny(lower: string, keywords: seq<string>): (b: bool)
    ensures b <==> exists k :: 0 <= k < |keywords| && Contains(lower, keywords[k])
  {
    if keywords == [] then false
    else Includes(lower, keywords[0]) || MentionsAny(lower, keywords[1..])
  }

  lemma GroupMatchesMentions(lower: string, g: nat)
    requires g < |KeywordGroups|
    ensures GroupMatches(lower, g) <==> MentionsAny(lower, KeywordGroups[g])
  {
  }

  /** The category of `text`: the first group, in priority order, one of
      whose keywords occurs in the lower-cased text; "unknown" when none does. */
  function Classify(text: string): (category: string)
    ensures category in Categories || category == Unknown
    ensures category == "invoice" <==> GroupMatches(ToLower(text), 0)
    ensures category == "receipt" <==> !GroupMatches(ToLower(text), 0) && GroupMatches(ToLower(text), 1)
    ensures category == "contract" <==>
              !GroupMatches(ToLower(text), 0) && !GroupMatches(ToLower(text), 1) && GroupMatches(ToLower(text), 2)
    ensures category == "identification" <==>
              && !GroupMatches(ToLower(text), 0) && !GroupMatches(ToLower(text), 1)
              && !GroupMatches(ToLower(text), 2) && GroupMatches(ToLower(text), 3)
    ensures category == Unknown <==> forall g :: 0 <= g < |KeywordGroups| ==> !GroupMatches(ToLower(text), g)
  {
    var lowerText := ToLower(text);
    GroupMatchesMentions(lowerText, 0);
    GroupMatchesMentions(lowerText, 1);
    GroupMatchesMentions(lowerText, 2);
    GroupMatchesMentions(lowerText, 3);
    if MentionsAny(lowerText, InvoiceKeywords) then "invoice"
    else if MentionsAny(lowerText, ReceiptKeywords) then "receipt"
    else if MentionsAny(lowerText, ContractKeywords) then "contract"
    else if MentionsAny(lowerText, IdentificationKeywords) then "identification"
    else Unknown
  }

  /** The category depends only on the lower-cased text: changing the case of
      letters never changes it. */
  lemma ClassifyIgnoresCase(a: string, b: string)
    requires EqualIgnoringCase(a, b)
    ensures Classify(a) == Classify(b)
  {
    LowerOfEqualIgnoringCase(a, b);
  }

  /** Priority: any text mentioning "invoice" is an invoice, whatever else it
      mentions, for instance "terms and conditions". */
  lemma InvoiceOutranksOtherGroups(text: string)
    requires Contains(ToLower(text), "invoice")
    ensures Classify(text) == "invoice"
  {
    assert GroupMatches(ToLower(text), 0) by {
      assert Contains(ToLower(text), KeywordGroups[0][0]);
    }
  }

  /** A text that misses the invoice, receipt and contract keywords but holds
      the letters "id" anywhere, even inside a word, is an identification. */
  lemma BareIdMeansIdentification(text: string)
    requires !GroupMatches(ToLower(text), 0) && !GroupMatches(ToLower(text), 1) && !GroupMatches(ToLower(text), 2)
    requires Contains(ToLower(text), "id")
    ensures Classify(text) == "identification"
  {
    assert GroupMatches(ToLower(text), 3) by {
      assert Contains(ToLower(text), KeywordGroups[3][0]);
    }
  }

  /** "said" is classified as an identification document. */
  lemma SaidIsIdentification()
    ensures Classify("said") == "identification"
  {
    var lower := ToLower("said");
    assert lower == "said";
    assert OccursAt(lower, 2, "id");
    forall g, k | 0 <= g < 3 && 0 <= k < |KeywordGroups[g]|
      ensures !Contains(lower, KeywordGroups[g][k])
    {
      assert |KeywordGroups[g][k]| > |lower|;
    }
    BareIdMeansIdentification("said");
  }
}

=== FILE: engines.dfy ===
/** The external engines the pipeline calls, as total functions whose
    thrown errors are `Err` values. Each is deterministic: calling it twice
    on the same input gives the same answer. */
module Engines {
  import opened Results

  newtype byte = x: int | 0 <= x < 256

  type Bytes = seq<byte>

  /** What the PDF text-layer parser reports: the text and the page count. */
  datatype PdfData = PdfData(text: string, numPages: nat)

  datatype Engines = Engines(
    /** Text-layer parser (`pdf-parse`). */
    parsePdf: Bytes -> Result<PdfData>,
    /** PDF loader (`PDFDocument.load(...).getPages().length`), including
        reading the saved original back from disk. */
    loadPdf: Bytes -> Result<nat>,
    /** Everything done for page `i` before its image path is recorded:
        copying the page into a one-page PDF, saving it, writing the
        temporary file and the blank PNG, unlinking the temporary file. */
    renderPage: (Bytes, nat) -> Result<()>,
    /** `createWorker(language)`, `worker.recognize(imagePath)` and
        `worker.terminate()`: the recognised text of the image at a path, in
        a language, failing when any of the three fails. */
    recognize: (string, string) -> Result<string>,
    /** The language identifier (`franc(text, { minLength: 20 })`): an
        ISO 639-3 code, `"und"` when undetermined. */
    identify: string -> Result<string>
  )
}

=== FILE: fields.dfy ===
/** Regular-expression field extraction (`OcrService.extractFields`). */
module FieldExtractor {
  import opened Results
  import opened JsStrings
  import opened Regex

  /** `/<word>\s*(?:no|number|#)[:.\s]*([A-Za-z0-9-]+)/i` */
  function NumberPattern(word: string): Pattern {
    Pattern([OneOf([word]), Star(Space), OneOf(["no", "number", "#"]), Star(Separator)], Identifier)
  }

  const InvoiceNumberPattern: Pattern := NumberPattern("invoice")
  const ReceiptNumberPattern: Pattern := NumberPattern("receipt")

  /** `/date[:.\s]*([\d\/\-\.]+)/i` */
  const DatePattern: Pattern := Pattern([OneOf(["date"]), Star(Separator)], DateChar)

  /** `/total[:.\s]*[$€£]?[\s]*([\d,.]+)/i` */
  const TotalPattern: Pattern :=
    Pattern([OneOf(["total"]), Star(Separator), Opt(CurrencySign), Star(Space)], AmountChar)

  type Fields = map<string, string>

  /** The pattern matches somewhere in `text`. */
  ghost predicate Found(text: string, p: Pattern) {
    exists i :: 0 <= i <= |text| && MatchesAt(text, p, i)
  }

  /** Every character of `v` belongs to class `k`. */
  predicate AllInClass(v: string, k: CharClass) {
    forall i :: 0 <= i < |v| ==> InClass(v[i], k)
  }

  /** A captured field value: non-empty and drawn from the group's class. */
  ghost predicate ValueOf(fields: Fields, key: string, p: Pattern)
    requires key in fields
  {
    fields[key] != [] && AllInClass(fields[key], p.capture)
  }

  /** None of the capture classes holds whitespace, so trimming a capture
      leaves it unchanged. */
  lemma TrimCapture(v: string, k: CharClass)
    requires k == Identifier || k == DateChar || k == AmountChar
    requires AllInClass(v, k)
    ensures Trim(v) == v
  {
    TrimNoWhitespace(v);
  }

  /** `if (m && m[1]) fields[key] = m[1].trim()` for `m = text.match(p)`. */
  function PutCapture(fields: Fields, key: string, text: string, p: Pattern): (r: Fields)
    requires p.capture == Identifier || p.capture == DateChar || p.capture == AmountChar
    ensures r.Keys == if Found(text, p) then fields.Keys + {key} else fields.Keys
    ensures forall k :: k in fields && k != key ==> r[k] == fields[k]
    ensures key in r && Found(text, p) ==> r[key] == Capture(text, p).value && ValueOf(r, key, p)
    ensures !Found(text, p) ==> r == fields
  {
    match Capture(text, p)
    case None => fields
    case Some(v) =>
      TrimCapture(v, p.capture);
      fields[key := Trim(v)]
  }

  /** The number, date and total of a document whose number field is
      `numberKey`, found with `numberPattern`. */
  function ExtractThree(text: string, numberKey: string, numberPattern: Pattern): (fields: Fields)
    requires numberKey !in {"date", "totalAmount"} && numberPattern.capture == Identifier
    ensures fields.Keys <= {numberKey, "date", "totalAmount"}
    ensures numberKey in fields <==> Found(text, numberPattern)
    ensures "date" in fields <==> Found(text, DatePattern)
    ensures "totalAmount" in fields <==> Found(text, TotalPattern)
    ensures numberKey in fields ==> ValueOf(fields, numberKey, numberPattern)
    ensures "date" in fields ==> ValueOf(fields, "date", DatePattern)
    ensures "totalAmount" in fields ==> ValueOf(fields, "totalAmount", TotalPattern)
    ensures numberKey in fields ==> fields[numberKey] == Capture(text, numberPattern).value
    ensures "date" in fields ==> fields["date"] == Capture(text, DatePattern).value
    ensures "totalAmount" in fields ==> fields["totalAmount"] == Capture(text, TotalPattern).value
  {
    var f1 := PutCapture(map[], numberKey, text, numberPattern);
    var f2 := PutCapture(f1, "date", text, DatePattern);
    PutCapture(f2, "totalAmount", text, TotalPattern)
  }

  /** The structured fields of `text` for a document of type `documentType`:
      the number, date and total of an invoice or a receipt; nothing for any
      other type, compared case-sensitively. */
  function ExtractFields(text: string, documentType: string): (fields: Fields)
    ensures documentType != "invoice" && documentType != "receipt" ==> fields == map[]
    ensures documentType == "invoice" ==>
              && fields.Keys <= {"invoiceNumber", "date", "totalAmount"}
              && ("invoiceNumber" in fields <==> Found(text, InvoiceNumberPattern))
              && ("date" in fields <==> Found(text, DatePattern))
              && ("totalAmount" in fields <==> Found(text, TotalPattern))
              && ("invoiceNumber" in fields ==> ValueOf(fields, "invoiceNumber", InvoiceNumberPattern))
    ensures documentType == "receipt" ==>
              && fields.Keys <= {"receiptNumber", "date", "totalAmount"}
              && ("receiptNumber" in fields <==> Found(text, ReceiptNumberPattern))
              && ("date" in fields <==> Found(text, DatePattern))
              && ("totalAmount" in fields <==> Found(text, TotalPattern))
              && ("receiptNumber" in fields ==> ValueOf(fields, "receiptNumber", ReceiptNumberPattern))
    ensures documentType in {"invoice", "receipt"} ==>
              && ("date" in fields ==> ValueOf(fields, "date", DatePattern))
              && ("totalAmount" in fields ==> ValueOf(fields, "totalAmount", TotalPattern))
    ensures documentType == "invoice" && "invoiceNumber" in fields ==>
              fields["invoiceNumber"] == Capture(text, InvoiceNumberPattern).value
    ensures documentType == "receipt" && "receiptNumber" in fields ==>
              fields["receiptNumber"] == Capture(text, ReceiptNumberPattern).value
    ensures documentType in {"invoice", "receipt"} ==>
              && ("date" in fields ==> fields["date"] == Capture(text, DatePattern).value)
              && ("totalAmount" in fields ==> fields["totalAmount"] == Capture(text, TotalPattern).value)
  {
    if documentType == "invoice" then ExtractThree(text, "invoiceNumber", InvoiceNumberPattern)
    else if documentType == "receipt" then ExtractThree(text, "receiptNumber", ReceiptNumberPattern)
    else map[]
  }

  /** A literal read off `text` from `pos`: its characters sit there one by one. */
  lemma LiteralAt(text: string, pos: nat, w: string)
    requires pos <= |text| && |w| <= |text| - pos && text[pos..][..|w|] == w
    ensures text[pos..pos + |w|] == w
    ensures forall k :: 0 <= k < |w| ==> text[pos + k] == w[k]
  {
    assert text[pos..pos + |w|] == text[pos..][..|w|];
  }

  /** The worked example `Invoice Number: INV-1023 Total: $452.10`: the
      words the patterns look for and where they occur. Its offsets:

        0  "Invoice"        14  ": " (after "Number")   25  "Total"
        7  " "              16  "INV-1023"              30  ": " (after "Total")
        8  "Number"         24  " "                     32  "$"
                                                        33  "452.10"          */
  lemma ExampleWords(text: string)
    requires text == "Invoice Number: INV-1023 Total: $452.10"
    ensures WordAt(text, 0, "invoice") && WordAt(text, 8, "number") && WordAt(text, 25, "total")
  {
    ExampleWordInvoice(text);
    ExampleWordNumber(text);
    ExampleWordTotal(text);
  }

  lemma ExampleWordInvoice(text: string)
    requires text == "Invoice Number: INV-1023 Total: $452.10"
    ensures WordAt(text, 0, "invoice")
  {
    assert text[0..][..7] == "Invoice";
    LiteralAt(text, 0, "Invoice");
  }

  lemma ExampleWordNumber(text: string)
    requires text == "Invoice Number: INV-1023 Total: $452.10"
    ensures WordAt(text, 8, "number")
  {
    assert text[8..] == "Number: INV-1023 Total: $452.10";
    LiteralAt(text, 8, "Number");
  }

  lemma ExampleWordTotal(text: string)
    requires text == "Invoice Number: INV-1023 Total: $452.10"
    ensures WordAt(text, 25, "total")
  {
    assert text[25..] == "Total: $452.10";
    LiteralAt(text, 25, "Total");
  }

  /** "Number" is not "no": the engine tries `no` first and moves on. */
  lemma ExampleNotNo(text: string)
    requires text == "Invoice Number: INV-1023 Total: $452.10"
    ensures !WordAt(text, 8, "no")
  {
    assert LowerChar(text[9]) != LowerChar("no"[1]);
  }

  /** No position before "Total" holds a `t` of either case. */
  lemma ExampleNoTBeforeTotal(text: string)
    requires text == "Invoice Number: INV-1023 Total: $452.10"
    ensures forall i :: 0 <= i < 25 ==> LowerChar(text[i]) != 't'
  {
    assert text[..25] == "Invoice Number: INV-1023 ";
    assert 't' !in text[..25] && 'T' !in text[..25];
  }

  /** The two captured substrings. */
  lemma ExampleSlices(text: string)
    requires text == "Invoice Number: INV-1023 Total: $452.10"
    ensures text[16..24] == "INV-1023" && text[33..39] == "452.10"
  {
    assert text[16..] == "INV-1023 Total: $452.10";
    LiteralAt(text, 16, "INV-1023");
    assert text[33..] == "452.10";
    LiteralAt(text, 33, "452.10");
  }

  /** The runs of each class the starred items and the captures consume. */
  lemma ExampleRunSpaceAfterInvoice(text: string)
    requires text == "Invoice Number: INV-1023 Total: $452.10"
    ensures RunLength(text, 7, Space) == 1
  {
    RunLengthOf(text, 7, Space, 1);
  }

  lemma ExampleRunNumberColon(text: string)
    requires text == "Invoice Number: INV-1023 Total: $452.10"
    ensures RunLength(text, 14, Separator) == 2
  {
    RunLengthOf(text, 14, Separator, 2);
  }

  lemma ExampleRunInvoiceId(text: string)
    requires text == "Invoice Number: INV-1023 Total: $452.10"
    ensures RunLength(text, 16, Identifier) == 8
  {
    RunLengthOf(text, 16, Identifier, 8);
  }

  lemma ExampleRunTotalColon(text: string)
    requires text == "Invoice Number: INV-1023 Total: $452.10"
    ensures RunLength(text, 30, Separator) == 2
  {
    RunLengthOf(text, 30, Separator, 2);
  }

  lemma ExampleRunSpaceAfterDollar(text: string)
    requires text == "Invoice Number: INV-1023 Total: $452.10"
    ensures RunLength(text, 33, Space) == 0
  {
    RunLengthOf(text, 33, Space, 0);
  }

  lemma ExampleRunAmount(text: string)
    requires text == "Invoice Number: INV-1023 Total: $452.10"
    ensures RunLength(text, 33, AmountChar) == 6
  {
    RunLengthOf(text, 33, AmountChar, 6);
  }

  /** The engine on the example: the invoice-number pattern at offset 0,
      one item at a time from the last. */
  lemma ExampleNumberSeparator(text: string)
    requires text == "Invoice Number: INV-1023 Total: $452.10"
    ensures MatchAt(text, 14, [Star(Separator)], Identifier) == Some(Trace([2], 16, 24))
  {
    ExampleRunInvoiceId(text);
    StepCapture(text, 16, Identifier, 8);
    ExampleRunNumberColon(text);
    StepStar(text, 14, [Star(Separator)], Identifier, 2, Trace([], 16, 24));
    assert Prepend(2, Trace([], 16, 24)) == Trace([2], 16, 24);
  }

  lemma ExampleNumberWord(text: string)
    requires text == "Invoice Number: INV-1023 Total: $452.10"
    ensures MatchAt(text, 8, [OneOf(["no", "number", "#"]), Star(Separator)], Identifier)
            == Some(Trace([1, 2], 16, 24))
  {
    var items := [OneOf(["no", "number", "#"]), Star(Separator)];
    assert items[1..] == [Star(Separator)];
    ExampleNumberSeparator(text);
    ExampleWords(text);
    ExampleNotNo(text);
    StepWord(text, 8, items, Identifier, 1, Trace([2], 16, 24));
    assert Prepend(1, Trace([2], 16, 24)) == Trace([1, 2], 16, 24);
  }

  lemma ExampleNumberSpace(text: string)
    requires text == "Invoice Number: INV-1023 Total: $452.10"
    ensures MatchAt(text, 7, [Star(Space), OneOf(["no", "number", "#"]), Star(Separator)], Identifier)
            == Some(Trace([1, 1, 2], 16, 24))
  {
    var items := [Star(Space), OneOf(["no", "number", "#"]), Star(Separator)];
    assert items[1..] == [OneOf(["no", "number", "#"]), Star(Separator)];
    ExampleNumberWord(text);
    ExampleRunSpaceAfterInvoice(text);
    StepStar(text, 7, items, Identifier, 1, Trace([1, 2], 16, 24));
    assert Prepend(1, Trace([1, 2], 16, 24)) == Trace([1, 1, 2], 16, 24);
  }

  lemma ExampleNumberAtStart(text: string)
    requires text == "Invoice Number: INV-1023 Total: $452.10"
    ensures MatchAt(text, 0, InvoiceNumberPattern.items, Identifier) == Some(Trace([0, 1, 1, 2], 16, 24))
  {
    var items := InvoiceNumberPattern.items;
    assert items[1..] == [Star(Space), OneOf(["no", "number", "#"]), Star(Separator)];
    ExampleNumberSpace(text);
    ExampleWords(text);
    StepWord(text, 0, items, Identifier, 0, Trace([1, 1, 2], 16, 24));
    assert Prepend(0, Trace([1, 1, 2], 16, 24)) == Trace([0, 1, 1, 2], 16, 24);
  }

  /** The engine on the example: the total pattern at offset 25. */
  lemma ExampleTotalSpace(text: string)
    requires text == "Invoice Number: INV-1023 Total: $452.10"
    ensures MatchAt(text, 33, [Star(Space)], AmountChar) == Some(Trace([0], 33, 39))
  {
    ExampleRunAmount(text);
    StepCapture(text, 33, AmountChar, 6);
    ExampleRunSpaceAfterDollar(text);
    StepStar(text, 33, [Star(Space)], AmountChar, 0, Trace([], 33, 39));
    assert Prepend(0, Trace([], 33, 39)) == Trace([0], 33, 39);
  }

  lemma ExampleTotalCurrency(text: string)
    requires text == "Invoice Number: INV-1023 Total: $452.10"
    ensures MatchAt(text, 32, [Opt(CurrencySign), Star(Space)], AmountChar) == Some(Trace([1, 0], 33, 39))
  {
    var items := [Opt(CurrencySign), Star(Space)];
    assert items[1..] == [Star(Space)];
    ExampleTotalSpace(text);
    assert InClass(text[32], CurrencySign);
    StepOptTaken(text, 32, items, AmountChar, Trace([0], 33, 39));
    assert Prepend(1, Trace([0], 33, 39)) == Trace([1, 0], 33, 39);
  }

  lemma ExampleTotalSeparator(text: string)
    requires text == "Invoice Number: INV-1023 Total: $452.10"
    ensures MatchAt(text, 30, [Star(Separator), Opt(CurrencySign), Star(Space)], AmountChar)
            == Some(Trace([2, 1, 0], 33, 39))
  {
    var items := [Star(Separator), Opt(CurrencySign), Star(Space)];
    assert items[1..] == [Opt(CurrencySign), Star(Space)];
    ExampleTotalCurrency(text);
    ExampleRunTotalColon(text);
    StepStar(text, 30, items, AmountChar, 2, Trace([1, 0], 33, 39));
    assert Prepend(2, Trace([1, 0], 33, 39)) == Trace([2, 1, 0], 33, 39);
  }

  lemma ExampleTotalFromWord(text: string)
    requires text == "Invoice Number: INV-1023 Total: $452.10"
    ensures MatchAt(text, 25, TotalPattern.items, AmountChar) == Some(Trace([0, 2, 1, 0], 33, 39))
  {
    var items := TotalPattern.items;
    assert items[1..] == [Star(Separator), Opt(CurrencySign), Star(Space)];
    ExampleTotalSeparator(text);
    ExampleWords(text);
    StepWord(text, 25, items, AmountChar, 0, Trace([2, 1, 0], 33, 39));
    assert Prepend(0, Trace([2, 1, 0], 33, 39)) == Trace([0, 2, 1, 0], 33, 39);
  }

  /** The search for the total passes over every position before "Total",
      none of which begins with `total`. */
  lemma ExampleNoTotalBeforeWord(text: string)
    requires text == "Invoice Number: INV-1023 Total: $452.10"
    ensures forall i :: 0 <= i < 25 ==> !MatchesAt(text, TotalPattern, i)
  {
    ExampleNoTBeforeTotal(text);
    forall i | 0 <= i < 25
      ensures !MatchesAt(text, TotalPattern, i)
    {
      assert TotalPattern.items[0].words == ["total"];
      assert LowerChar("total"[0]) == 't';
      assert !WordAt(text, i, "total");
      NoMatchWithoutFirstWord(text, TotalPattern, i);
    }
  }

  /** The captures of the example: the number pattern matches at the very
      start, the total pattern first at "Total". */
  lemma ExampleNumberCapture(text: string)
    requires text == "Invoice Number: INV-1023 Total: $452.10"
    ensures Capture(text, InvoiceNumberPattern) == Some("INV-1023")
  {
    ExampleSlices(text);
    ExampleNumberAtStart(text);
  }

  lemma ExampleTotalCapture(text: string)
    requires text == "Invoice Number: INV-1023 Total: $452.10"
    ensures Capture(text, TotalPattern) == Some("452.10")
  {
    ExampleSlices(text);
    ExampleNoTotalBeforeWord(text);
    FirstMatchSkips(text, TotalPattern, 0, 25);
    ExampleTotalFromWord(text);
  }

  /** "Invoice Number: INV-1023 Total: $452.10" read as an invoice yields
      the number `INV-1023` and the total `452.10`. */
  lemma InvoiceExample(text: string)
    requires text == "Invoice Number: INV-1023 Total: $452.10"
    ensures var f := ExtractFields(text, "invoice");
            "invoiceNumber" in f && f["invoiceNumber"] == "INV-1023"
            && "totalAmount" in f && f["totalAmount"] == "452.10"
  {
    ExampleNumberCapture(text);
    ExampleTotalCapture(text);
  }
}

=== FILE: js_strings.dfy ===
/** The JavaScript string built-ins the pipeline relies on: `trim`, `length`,
    `toLowerCase` and `Array.prototype.join`, over `seq<char>`. */
module JsStrings {

  /** The characters JavaScript's `trim` removes and a regular expression's `\s`
      matches: the WhiteSpace and LineTerminator code points of ECMA-262
      (TAB, LF, VT, FF, CR, SPACE, NBSP, the Unicode space separators, LS, PS
      and the byte-order mark). */
  predicate IsJsWhitespace(c: char) {
    var n := c as int;
    || 0x09 <= n <= 0x0D
    || n == 0x20 || n == 0xA0 || n == 0x1680
    || 0x2000 <= n <= 0x200A
    || n == 0x2028 || n == 0x2029 || n == 0x202F || n == 0x205F
    || n == 0x3000 || n == 0xFEFF
  }

  /** Number of whitespace characters at the start of `s`. */
  function LeadingWhitespace(s: string): (n: nat)
    ensures n <= |s|
    ensures forall k :: 0 <= k < n ==> IsJsWhitespace(s[k])
    ensures n == |s| || !IsJsWhitespace(s[n])
  {
    if s == [] || !IsJsWhitespace(s[0]) then 0 else 1 + LeadingWhitespace(s[1..])
  }

  /** Number of whitespace characters at the end of `s`. */
  function TrailingWhitespace(s: string): (n: nat)
    ensures n <= |s|
    ensures forall k :: |s| - n <= k < |s| ==> IsJsWhitespace(s[k])
    ensures n == |s| || !IsJsWhitespace(s[|s| - n - 1])
  {
    if s == [] || !IsJsWhitespace(s[|s| - 1]) then 0 else 1 + TrailingWhitespace(s[..|s| - 1])
  }

  /** `String.prototype.trim`: the slice of `s` between its leading and
      trailing whitespace. */
  function Trim(s: string): (r: string)
    ensures exists a, b :: 0 <= a <= b <= |s| && r == s[a..b]
                           && (forall k :: 0 <= k < a ==> IsJsWhitespace(s[k]))
                           && (forall k :: b <= k < |s| ==> IsJsWhitespace(s[k]))
    ensures r == [] || (!IsJsWhitespace(r[0]) && !IsJsWhitespace(r[|r| - 1]))
  {
    var a := LeadingWhitespace(s);
    if a == |s| then
      assert s[|s|..|s|] == [];
      []
    else
      var b := |s| - TrailingWhitespace(s);
      s[a..b]
  }

  /** Trimming a string without any whitespace gives it back unchanged. */
  lemma TrimNoWhitespace(s: string)
    requires forall k :: 0 <= k < |s| ==> !IsJsWhitespace(s[k])
    ensures Trim(s) == s
  {
    assert LeadingWhitespace(s) == 0 by {
      if |s| > 0 { assert !IsJsWhitespace(s[0]); }
    }
    if |s| > 0 {
      assert !IsJsWhitespace(s[|s| - 1]);
      assert TrailingWhitespace(s) == 0;
      assert s[0..|s|] == s;
    }
  }

  /** An ASCII decimal digit, the class `\d` denotes. */
  predicate IsDigit(c: char) {
    '0' <= c <= '9'
  }

  /** Number of UTF-16 code units a character occupies. */
  function CodeUnits(c: char): nat {
    if c as int > 0xFFFF then 2 else 1
  }

  /** JavaScript's `length` of a string: its number of UTF-16 code units, so a
      character outside the Basic Multilingual Plane counts twice. */
  function JsLength(s: string): (n: nat)
    ensures |s| <= n <= 2 * |s|
  {
    if s == [] then 0 else CodeUnits(s[0]) + JsLength(s[1..])
  }

  /** `length` is additive over concatenation. */
  lemma {:induction false} JsLengthAppend(a: string, b: string)
    ensures JsLength(a + b) == JsLength(a) + JsLength(b)
  {
    if a == [] {
      assert a + b == b;
    } else {
      assert (a + b)[1..] == a[1..] + b;
      JsLengthAppend(a[1..], b);
    }
  }

  /** `length` equals the number of characters exactly when every character
      lies in the Basic Multilingual Plane. */
  lemma {:induction false} JsLengthOfBmp(s: string)
    ensures JsLength(s) == |s| <==> forall k :: 0 <= k < |s| ==> s[k] as int <= 0xFFFF
  {
    if s != [] {
      JsLengthOfBmp(s[1..]);
      assert forall k :: 1 <= k < |s| ==> s[k] == s[1..][k - 1];
    }
  }

  /** ASCII lower-casing; every other character is left as it is. */
  function LowerChar(c: char): char {
    if 'A' <= c <= 'Z' then (c as int + 32) as char else c
  }

  /** `String.prototype.toLowerCase`, restricted to ASCII letters. */
  function ToLower(s: string): (r: string)
    ensures |r| == |s|
    ensures forall k :: 0 <= k < |s| ==> r[k] == LowerChar(s[k])
  {
    if s == [] then [] else [LowerChar(s[0])] + ToLower(s[1..])
  }

  /** Two strings that differ only in the case of ASCII letters. */
  predicate EqualIgnoringCase(a: string, b: string) {
    |a| == |b| && forall k :: 0 <= k < |a| ==> LowerChar(a[k]) == LowerChar(b[k])
  }

  /** Strings equal up to case have the same lower-case form. */
  lemma LowerOfEqualIgnoringCase(a: string, b: string)
    requires EqualIgnoringCase(a, b)
    ensures ToLower(a) == ToLower(b)
  {
  }

  /** Lower-casing a string keeps it equal up to case. */
  lemma LowerIsEqualIgnoringCase(s: string)
    ensures EqualIgnoringCase(s, ToLower(s))
  {
  }

  /** `Array.prototype.join(sep)` over strings. */
  function JoinWith(parts: seq<string>, sep: string): string
  {
    if parts == [] then ""
    else if |parts| == 1 then parts[0]
    else parts[0] + sep + JoinWith(parts[1..], sep)
  }

  /** Where the `i`-th part starts in the joined string: every earlier part
      followed by one separator. */
  function PartOffset(parts: seq<string>, sep: string, i: nat): nat
    requires i <= |parts|
  {
    if i == 0 then 0 else PartOffset(parts, sep, i - 1) + |parts[i - 1]| + |sep|
  }

  lemma {:induction false} PartOffsetShift(parts: seq<string>, sep: string, i: nat)
    requires 1 <= i <= |parts|
    ensures PartOffset(parts, sep, i) == |parts[0]| + |sep| + PartOffset(parts[1..], sep, i - 1)
  {
    if i > 1 {
      PartOffsetShift(parts, sep, i - 1);
    }
  }

  /** Slicing past a prefix slices what follows it. */
  lemma SliceAfter(a: string, b: string, x: nat, y: nat)
    requires x <= y <= |b|
    ensures (a + b)[|a| + x..|a| + y] == b[x..y]
  {
    assert forall k :: 0 <= k < y - x ==> (a + b)[|a| + x..|a| + y][k] == b[x..y][k];
  }

  /** The joined string is the parts and the separators between them, and
      nothing else. */
  lemma {:induction false} JoinLength(parts: seq<string>, sep: string)
    requires parts != []
    ensures |JoinWith(parts, sep)| + |sep| == PartOffset(parts, sep, |parts|)
  {
    if |parts| > 1 {
      JoinLength(parts[1..], sep);
      PartOffsetShift(parts, sep, |parts|);
    }
  }

  /** The `i`-th part sits at `PartOffset(i)` of the joined string. */
  lemma {:induction false} JoinPartAt(parts: seq<string>, sep: string, i: nat)
    requires i < |parts|
    ensures PartOffset(parts, sep, i) + |parts[i]| <= |JoinWith(parts, sep)|
    ensures JoinWith(parts, sep)[PartOffset(parts, sep, i)..PartOffset(parts, sep, i) + |parts[i]|] == parts[i]
  {
    var j := JoinWith(parts, sep);
    if |parts| == 1 {
      assert j[0..|parts[0]|] == parts[0];
    } else {
      var tail := parts[1..];
      var jt := JoinWith(tail, sep);
      assert j == parts[0] + sep + jt;
      if i == 0 {
        assert j[0..|parts[0]|] == parts[0];
      } else {
        JoinPartAt(tail, sep, i - 1);
        PartOffsetShift(parts, sep, i);
        var base := |parts[0]| + |sep|;
        var o := PartOffset(tail, sep, i - 1);
        assert parts[i] == tail[i - 1];
        SliceAfter(parts[0] + sep, jt, o, o + |parts[i]|);
      }
    }
  }

  /** Between the `i`-th and the next part the joined string holds exactly
      one separator. */
  lemma {:induction false} JoinSeparatorAt(parts: seq<string>, sep: string, i: nat)
    requires i + 1 < |parts|
    ensures PartOffset(parts, sep, i + 1) <= |JoinWith(parts, sep)|
    ensures JoinWith(parts, sep)[PartOffset(parts, sep, i) + |parts[i]|..PartOffset(parts, sep, i + 1)] == sep
  {
    var j := JoinWith(parts, sep);
    var tail := parts[1..];
    var jt := JoinWith(tail, sep);
    assert j == parts[0] + sep + jt;
    var base := |parts[0]| + |sep|;
    if i == 0 {
      assert j[|parts[0]|..base] == sep;
    } else {
      JoinSeparatorAt(tail, sep, i - 1);
      PartOffsetShift(parts, sep, i);
      PartOffsetShift(parts, sep, i + 1);
      var o := PartOffset(tail, sep, i - 1);
      assert parts[i] == tail[i - 1];
      SliceAfter(parts[0] + sep, jt, o + |tail[i - 1]|, PartOffset(tail, sep, i));
    }
  }
}

=== FILE: ocr.dfy ===
/** Language detection and optical character recognition (`OcrService`). */
module OcrService {
  import opened Results
  import opened JsStrings
  import opened Engines

  /** The language used whenever nothing better is known. */
  const DefaultLanguage: string := "eng"

  /** Texts whose trimmed length is below this are not given to the identifier. */
  const MinLength: nat := 20

  /** Identifier codes (ISO 639-3) and the recogniser's names for them. */
  const TesseractCodes: map<string, string> := map[
    "cmn" := "chi_sim", "jpn" := "jpn", "kor" := "kor", "eng" := "eng",
    "deu" := "deu", "fra" := "fra", "spa" := "spa", "ita" := "ita",
    "rus" := "rus", "ara" := "ara", "hin" := "hin", "ben" := "ben",
    "por" := "por", "urd" := "urd"
  ]

  /** `langMap[langCode] || langCode`: the recogniser's name for an
      identifier code, the code itself when the table has no entry. */
  function ToTesseractLanguage(code: string): (r: string)
    ensures code == "cmn" ==> r == "chi_sim"
    ensures code != "cmn" ==> r == code
    ensures code != "" ==> r != ""
  {
    var mapped := if code in TesseractCodes then TesseractCodes[code] else "";
    if mapped != "" then mapped else code
  }

  /** Mapping a name the table already produced changes nothing. */
  lemma ToTesseractIdempotent(code: string)
    ensures ToTesseractLanguage(ToTesseractLanguage(code)) == ToTesseractLanguage(code)
  {
  }

  /** Absent, empty or too short once trimmed: the identifier is not asked. */
  predicate TooShort(text: string) {
    text == [] || JsLength(Trim(text)) < MinLength
  }

  /** `detectLanguage`: the recogniser's name for the language of `text`,
      falling back to English for short text, an undetermined or empty
      answer, and an identifier that throws. */
  function DetectLanguage(text: string, identify: string -> Result<string>): (lang: string)
    ensures lang != ""
    ensures TooShort(text) ==> lang == DefaultLanguage
    ensures !TooShort(text) && identify(text).Err? ==> lang == DefaultLanguage
    ensures !TooShort(text) && identify(text).Ok? && identify(text).value in {"", "und"} ==>
              lang == DefaultLanguage
    ensures !TooShort(text) && identify(text).Ok? && identify(text).value !in {"", "und"} ==>
              lang == ToTesseractLanguage(identify(text).value)
  {
    if TooShort(text) then DefaultLanguage
    else
      match identify(text)
      case Err(_) => DefaultLanguage
      case Ok(code) => if code != "" && code != "und" then ToTesseractLanguage(code) else DefaultLanguage
  }

  /** Short text is English whatever the identifier would have said. */
  lemma ShortTextIgnoresIdentifier(text: string, id1: string -> Result<string>, id2: string -> Result<string>)
    requires TooShort(text)
    ensures DetectLanguage(text, id1) == DetectLanguage(text, id2) == DefaultLanguage
  {
  }

  /** Every answer is English or the mapping of what the identifier said. */
  lemma DetectedIsEnglishOrMapped(text: string, identify: string -> Result<string>)
    ensures var lang := DetectLanguage(text, identify);
            lang == DefaultLanguage
            || (identify(text).Ok? && lang == ToTesseractLanguage(identify(text).value))
  {
  }

  /** Trimming never lengthens a string, in UTF-16 units as in characters. */
  lemma {:induction false} TrimShortens(s: string)
    ensures JsLength(Trim(s)) <= JsLength(s)
  {
    var a, b :| 0 <= a <= b <= |s| && Trim(s) == s[a..b];
    assert s == s[..a] + s[a..b] + s[b..];
    JsLengthAppend(s[..a] + s[a..b], s[b..]);
    JsLengthAppend(s[..a], s[a..b]);
  }

  /** A text shorter than the threshold even untrimmed is English. */
  lemma ShortUntrimmedIsEnglish(text: string, identify: string -> Result<string>)
    requires JsLength(text) < MinLength
    ensures DetectLanguage(text, identify) == DefaultLanguage
  {
    TrimShortens(text);
  }

  /** `languageHint || 'eng'`: the language the recogniser is asked for. */
  function OcrLanguage(languageHint: Option<string>): (lang: string)
    ensures lang != ""
    ensures languageHint.Some? && languageHint.value != "" ==> lang == languageHint.value
    ensures languageHint.None? || languageHint.value == "" ==> lang == DefaultLanguage
  {
    match languageHint
    case Some(h) => if h != "" then h else DefaultLanguage
    case None => DefaultLanguage
  }

  /** What `performOcr` returns. */
  datatype OcrResult = OcrResult(text: string, detectedLanguage: string)

  /** `performOcr`: recognise the image at `imagePath` in the hinted
      language, then detect the language of what was read. */
  function PerformOcr(imagePath: string, languageHint: Option<string>, engines: Engines): (r: Result<OcrResult>)
    ensures var read := engines.recognize(imagePath, OcrLanguage(languageHint));
            && (r.Ok? <==> read.Ok?)
            && (r.Ok? ==> r.value.text == read.value
                          && r.value.detectedLanguage == DetectLanguage(read.value, engines.identify))
            && (r.Err? ==> r.message == "Failed to perform OCR: " + read.message)
  {
    var language := OcrLanguage(languageHint);
    var read :- Wrap("Failed to perform OCR: ", engines.recognize(imagePath, language));
    Ok(OcrResult(read, DetectLanguage(read, engines.identify)))
  }

  /** An empty hint is no hint. */
  lemma EmptyHintIsNoHint(imagePath: string, engines: Engines)
    ensures PerformOcr(imagePath, Some(""), engines) == PerformOcr(imagePath, None, engines)
  {
  }
}

=== FILE: paths.dfy ===
/** The parts of Node's `path` module and of number formatting the pipeline
    relies on. */
module Paths {
  import opened Results
  import opened JsStrings

  /** `path.join(dir, name)` for a directory and a single file name. */
  function Join(dir: string, name: string): string {
    dir + "/" + name
  }

  /** Decimal digit `d` as a character. */
  function DigitChar(d: nat): (c: char)
    requires d < 10
    ensures IsDigit(c)
  {
    ('0' as int + d) as char
  }

  /** The value of a decimal digit character. */
  function DigitValue(c: char): (d: nat)
    requires IsDigit(c)
    ensures d < 10
  {
    c as int - '0' as int
  }

  /** `${n}` for a natural number: its shortest decimal representation. */
  function Decimal(n: nat): (s: string)
    ensures s != []
    ensures forall k :: 0 <= k < |s| ==> IsDigit(s[k])
    ensures s[0] == '0' ==> n == 0
    decreases n
  {
    if n < 10 then [DigitChar(n)] else Decimal(n / 10) + [DigitChar(n % 10)]
  }

  /** The number a string of decimal digits denotes. */
  function ParseDecimal(s: string): nat
    requires forall k :: 0 <= k < |s| ==> IsDigit(s[k])
  {
    if s == [] then 0 else 10 * ParseDecimal(s[..|s| - 1]) + DigitValue(s[|s| - 1])
  }

  /** Reading back a formatted number gives the number. */
  lemma {:induction false} DecimalRoundTrip(n: nat)
    ensures ParseDecimal(Decimal(n)) == n
    decreases n
  {
    var s := Decimal(n);
    if n < 10 {
      assert s[..0] == [];
    } else {
      DecimalRoundTrip(n / 10);
      assert s[..|s| - 1] == Decimal(n / 10);
    }
  }

  /** Distinct numbers are formatted differently. */
  lemma DecimalInjective(m: nat, n: nat)
    requires Decimal(m) == Decimal(n)
    ensures m == n
  {
    DecimalRoundTrip(m);
    DecimalRoundTrip(n);
  }

  /** Index just past the last character of `p` that is not `/`; trailing
      slashes are not part of the last name. */
  function NameEnd(p: string): (e: nat)
    ensures e <= |p|
    ensures forall k :: e <= k < |p| ==> p[k] == '/'
    ensures e == 0 || p[e - 1] != '/'
  {
    if p == [] || p[|p| - 1] != '/' then |p| else NameEnd(p[..|p| - 1])
  }

  /** Index of the first character of the last name in `p[..e]`. */
  function NameStart(p: string, e: nat): (b: nat)
    requires e <= |p|
    ensures b <= e
    ensures forall k :: b <= k < e ==> p[k] != '/'
    ensures b == 0 || p[b - 1] == '/'
  {
    if e == 0 || p[e - 1] == '/' then e else NameStart(p, e - 1)
  }

  /** `path.basename(p)`: the last name in `p`, trailing slashes ignored. */
  function Basename(p: string): (b: string)
    ensures forall k :: 0 <= k < |b| ==> b[k] != '/'
  {
    var e := NameEnd(p);
    p[NameStart(p, e)..e]
  }

  /** The last name is the stretch of `p` that starts at its beginning or
      just after a slash and ends where the trailing slashes begin. */
  lemma BasenameIsLastName(p: string)
    ensures exists s :: 0 <= s <= NameEnd(p) && (s == 0 || p[s - 1] == '/') && Basename(p) == p[s..NameEnd(p)]
  {
    var s := NameStart(p, NameEnd(p));
    assert Basename(p) == p[s..NameEnd(p)];
  }

  /** Position of the last `.` in `s`. */
  function LastDot(s: string): (r: Option<nat>)
    ensures r.Some? ==> r.value < |s| && s[r.value] == '.'
                        && forall k :: r.value < k < |s| ==> s[k] != '.'
    ensures r.None? ==> forall k :: 0 <= k < |s| ==> s[k] != '.'
  {
    if s == [] then None
    else if s[|s| - 1] == '.' then Some(|s| - 1)
    else LastDot(s[..|s| - 1])
  }

  /** `path.extname(p)` (POSIX): from the last `.` of the last name to its
      end, or empty when that name has no `.`, starts with its only `.`, or
      is `..`. */
  function ExtName(p: string): (ext: string)
    ensures var b := Basename(p);
            ext == [] || (ext[0] == '.' && |ext| <= |b| && ext == b[|b| - |ext|..])
    ensures forall k :: 0 <= k < |ext| ==> ext[k] != '/'
    ensures forall k :: 1 <= k < |ext| ==> ext[k] != '.'
    ensures var b := Basename(p);
            (exists d :: 0 < d < |b| && b[d] == '.') && b != ".." ==> ext != []
    ensures Basename(p) == ".." ==> ext == []
  {
    var b := Basename(p);
    match LastDot(b)
    case None => []
    case Some(d) => if d == 0 || b == ".." then [] else b[d..]
  }

  /** A name ending in `.x`, with something before the dot and no `.` or
      `/` in `x`, has extension `.x`. */
  lemma ExtNameOfSuffix(stem: string, x: string)
    requires stem != [] && stem[|stem| - 1] != '/'
    requires x != [] && forall k :: 0 <= k < |x| ==> x[k] != '.' && x[k] != '/'
    ensures ExtName(stem + "." + x) == "." + x
  {
    var p := stem + "." + x;
    var e := NameEnd(p);
    assert e == |p|;
    var s := NameStart(p, e);
    assert forall k :: |stem| - 1 <= k < |p| ==> p[k] != '/';
    assert s <= |stem| - 1;
    var b := Basename(p);
    assert b == p[s..];
    assert b[|b| - 1 - |x|] == '.';
    assert LastDot(b) == Some(|b| - 1 - |x|) by {
      LastDotAt(b, |b| - 1 - |x|);
    }
    assert b[|b| - 1 - |x|..] == "." + x;
  }

  /** The last `.` of a string is where the string says it is. */
  lemma {:induction false} LastDotAt(s: string, d: nat)
    requires d < |s| && s[d] == '.' && forall k :: d < k < |s| ==> s[k] != '.'
    ensures LastDot(s) == Some(d)
    decreases |s|
  {
    if s[|s| - 1] != '.' {
      LastDotAt(s[..|s| - 1], d);
    }
  }

  /** A name without a dot, or whose only dot comes first, has no extension. */
  lemma NoExtensionWithoutInnerDot(p: string)
    requires forall k :: 1 <= k < |Basename(p)| ==> Basename(p)[k] != '.'
    ensures ExtName(p) == []
  {
  }
}

=== FILE: pdf.dfy ===
/** The PDF analyser (`PdfService`): is there a usable text layer, what
    does it say, and which page images does rasterising write. */
module PdfService {
  import opened Results
  import opened JsStrings
  import opened Engines
  import opened Paths

  /** Below this many characters a PDF counts as scanned. */
  const MinTextLength: nat := 50

  /** A text layer must average more than this many characters per page. */
  const MinCharsPerPage: nat := 100

  /** `textLength / pageCount > 100` in JavaScript numbers: dividing a
      positive length by zero pages gives `Infinity`, zero by zero `NaN`. */
  predicate ExceedsPerPage(textLength: nat, pageCount: nat) {
    if pageCount == 0 then textLength > 0
    else (textLength as real) / (pageCount as real) > MinCharsPerPage as real
  }

  /** `isTextBasedPdf` on what the parser reported: parsed, long enough, and
      dense enough per page. Decided by integer cross-multiplication. */
  function TextLayerVerdict(parsed: Result<PdfData>): (textBased: bool)
    ensures textBased <==> && parsed.Ok?
                           && JsLength(parsed.value.text) >= MinTextLength
                           && ExceedsPerPage(JsLength(parsed.value.text), parsed.value.numPages)
  {
    match parsed
    case Err(_) => false
    case Ok(data) =>
      var textLength := JsLength(data.text);
      var pageCount := data.numPages;
      if textLength < MinTextLength then false
      else if pageCount == 0 then true
      else
        CrossMultiplied(textLength, pageCount);
        textLength > MinCharsPerPage * pageCount
  }

  /** For a positive page count, the quotient exceeds 100 exactly when the
      length exceeds 100 times the page count. */
  lemma CrossMultiplied(textLength: nat, pageCount: nat)
    requires pageCount > 0
    ensures ExceedsPerPage(textLength, pageCount) <==> textLength > MinCharsPerPage * pageCount
  {
    var q := (textLength as real) / (pageCount as real);
    assert q * (pageCount as real) == textLength as real;
    if textLength > MinCharsPerPage * pageCount {
      assert q > MinCharsPerPage as real;
    } else {
      assert q <= MinCharsPerPage as real;
    }
  }

  /** `isTextBasedPdf(pdfBuffer)`. */
  function IsTextBasedPdf(pdfBuffer: Bytes, engines: Engines): (textBased: bool)
    ensures textBased == TextLayerVerdict(engines.parsePdf(pdfBuffer))
    ensures textBased ==> engines.parsePdf(pdfBuffer).Ok?
  {
    TextLayerVerdict(engines.parsePdf(pdfBuffer))
  }

  /** A PDF the parser cannot read is taken to be scanned. */
  lemma UnparsableIsScanned(message: string)
    ensures !TextLayerVerdict(Err(message))
  {
  }

  /** Fewer than 50 characters is scanned whatever the page count. */
  lemma ShortTextIsScanned(text: string, numPages: nat)
    requires JsLength(text) < MinTextLength
    ensures !TextLayerVerdict(Ok(PdfData(text, numPages)))
  {
  }

  /** Exactly 100 characters per page is not enough. */
  lemma HundredPerPageIsScanned(text: string, numPages: nat)
    requires numPages > 0 && JsLength(text) == MinCharsPerPage * numPages
    ensures !TextLayerVerdict(Ok(PdfData(text, numPages)))
  {
  }

  /** With no pages any text of at least 50 characters counts as a text
      layer, the quotient being infinite. */
  lemma NoPagesIsTextBased(text: string)
    requires JsLength(text) >= MinTextLength
    ensures TextLayerVerdict(Ok(PdfData(text, 0)))
  {
  }

  /** For a fixed page count, more text never turns a text layer into a scan. */
  lemma VerdictMonotoneInLength(shorter: string, longer: string, numPages: nat)
    requires JsLength(shorter) <= JsLength(longer)
    requires TextLayerVerdict(Ok(PdfData(shorter, numPages)))
    ensures TextLayerVerdict(Ok(PdfData(longer, numPages)))
  {
    if numPages > 0 {
      CrossMultiplied(JsLength(shorter), numPages);
      CrossMultiplied(JsLength(longer), numPages);
    }
  }

  /** `extractTextFromPdf`: the parser's text, unchanged. */
  function ExtractTextFromPdf(pdfBuffer: Bytes, engines: Engines): (r: Result<string>)
    ensures var parsed := engines.parsePdf(pdfBuffer);
            && (r.Ok? <==> parsed.Ok?)
            && (r.Ok? ==> r.value == parsed.value.text)
            && (r.Err? ==> r.message == "Failed to extract text from PDF: " + parsed.message)
  {
    var data :- Wrap("Failed to extract text from PDF: ", engines.parsePdf(pdfBuffer));
    Ok(data.text)
  }

  /** A PDF judged text-based always has its text extracted. */
  lemma TextBasedIsExtractable(pdfBuffer: Bytes, engines: Engines)
    requires IsTextBasedPdf(pdfBuffer, engines)
    ensures ExtractTextFromPdf(pdfBuffer, engines).Ok?
  {
  }

  /** `path.join(outputDir, `page-${i + 1}.png`)`: where page `i`
      (counting from 0) is written. */
  function PagePath(outputDir: string, i: nat): string {
    Join(outputDir, "page-" + Decimal(i + 1) + ".png")
  }

  /** Different pages are written to different files. */
  lemma PagePathsDistinct(outputDir: string, i: nat, j: nat)
    requires i != j
    ensures PagePath(outputDir, i) != PagePath(outputDir, j)
  {
    var front := outputDir + "/" + "page-";
    var di, dj := Decimal(i + 1), Decimal(j + 1);
    if PagePath(outputDir, i) == PagePath(outputDir, j) {
      assert PagePath(outputDir, i) == front + di + ".png";
      assert PagePath(outputDir, j) == front + dj + ".png";
      assert |di| == |dj|;
      assert di == (front + di + ".png")[|front|..|front| + |di|];
      assert dj == (front + dj + ".png")[|front|..|front| + |dj|];
      DecimalInjective(i + 1, j + 1);
    }
  }

  /** Pages `i` up to `pageCount` of the rasterising loop, stopping at the
      first page that fails. */
  function RenderFrom(pdfBytes: Bytes, outputDir: string, engines: Engines, pageCount: nat, i: nat)
    : (r: Result<seq<string>>)
    requires i <= pageCount
    ensures r.Ok? <==> forall j :: i <= j < pageCount ==> engines.renderPage(pdfBytes, j).Ok?
    ensures r.Ok? ==> |r.value| == pageCount - i
                      && forall k :: 0 <= k < |r.value| ==> r.value[k] == PagePath(outputDir, i + k)
    ensures r.Err? ==> exists j :: && i <= j < pageCount
                                   && engines.renderPage(pdfBytes, j) == Err(r.message)
                                   && forall j' :: i <= j' < j ==> engines.renderPage(pdfBytes, j').Ok?
    decreases pageCount - i
  {
    if i == pageCount then Ok([])
    else
      match engines.renderPage(pdfBytes, i)
      case Err(m) => Err(m)
      case Ok(_) =>
        match RenderFrom(pdfBytes, outputDir, engines, pageCount, i + 1)
        case Err(m) => Err(m)
        case Ok(rest) => Ok([PagePath(outputDir, i)] + rest)
  }

  /** `convertPdfToImages(pdfPath, outputDir)` for the PDF whose bytes were
      saved at `pdfPath`: one image path per page, in page order, or an
      error and no paths at all when loading or any page fails. */
  function ConvertPdfToImages(pdfBytes: Bytes, outputDir: string, engines: Engines): (r: Result<seq<string>>)
    ensures var loaded := engines.loadPdf(pdfBytes);
            && (r.Ok? <==> loaded.Ok? && forall j :: 0 <= j < loaded.value ==> engines.renderPage(pdfBytes, j).Ok?)
            && (r.Ok? ==> |r.value| == loaded.value
                          && forall k :: 0 <= k < |r.value| ==> r.value[k] == PagePath(outputDir, k))
            && (r.Err? ==> StartsWith(r.message, "Failed to convert PDF to images: "))
            && (loaded.Err? ==> r.message == "Failed to convert PDF to images: " + loaded.message)
  {
    var pageCount :- Wrap("Failed to convert PDF to images: ", engines.loadPdf(pdfBytes));
    Wrap("Failed to convert PDF to images: ", RenderFrom(pdfBytes, outputDir, engines, pageCount, 0))
  }

  /** The paths of a successful conversion are pairwise distinct. */
  lemma ConvertedPathsDistinct(pdfBytes: Bytes, outputDir: string, engines: Engines)
    requires ConvertPdfToImages(pdfBytes, outputDir, engines).Ok?
    ensures var paths := ConvertPdfToImages(pdfBytes, outputDir, engines).value;
            forall a, b :: 0 <= a < b < |paths| ==> paths[a] != paths[b]
  {
    var paths := ConvertPdfToImages(pdfBytes, outputDir, engines).value;
    forall a, b | 0 <= a < b < |paths| ensures paths[a] != paths[b] {
      PagePathsDistinct(outputDir, a, b);
    }
  }
}

=== FILE: pipeline.dfy ===
/** The document pipeline (`DocumentService.processDocument`): route an
    upload by its extension, read its text through the text layer or the
    recogniser, then classify it and extract its fields. */
module DocumentService {
  import opened Results
  import opened JsStrings
  import opened Engines
  import opened Paths
  import opened OcrService
  import opened DocumentClassifier
  import opened FieldExtractor
  import opened PdfService
  import opened LanguageVote

  /** The parts of an uploaded file the pipeline reads. */
  datatype UploadedFile = UploadedFile(originalname: string, size: nat, mimetype: string, buffer: Bytes)

  datatype Metadata = Metadata(originalFilename: string, fileSize: nat, fileType: string, documentId: string)

  /** What `processDocument` resolves to. The language is `None` where the
      source leaves it `undefined`. */
  datatype DocumentResult = DocumentResult(
    documentType: string,
    language: Option<string>,
    text: string,
    fields: Fields,
    pages: Option<nat>,
    metadata: Metadata,
    warnings: Option<seq<string>>
  )

  const ImageExtensions: seq<string> := [".jpg", ".jpeg", ".png", ".tiff", ".bmp", ".gif"]

  const FallbackWarning: string :=
    "Could not process scanned PDF completely. Using best-effort text extraction instead."

  /** Placed between the texts of consecutive pages. */
  const PageSeparator: string := "\n\n"

  /** `path.extname(file.originalname).toLowerCase()`. */
  function FileExtension(originalname: string): (ext: string)
    ensures |ext| == |ExtName(originalname)|
    ensures ext == [] || ext[0] == '.'
    ensures forall k :: 1 <= k < |ext| ==> ext[k] != '.' && ext[k] != '/'
    ensures EqualIgnoringCase(ext, ExtName(originalname))
  {
    ToLower(ExtName(originalname))
  }

  datatype Route = PdfRoute | ImageRoute | Unsupported

  /** Which branch an extension takes. */
  function RouteOf(ext: string): (route: Route)
    ensures route == PdfRoute <==> ext == ".pdf"
    ensures route == ImageRoute <==> ext in ImageExtensions
  {
    if ext == ".pdf" then PdfRoute
    else if ext in ImageExtensions then ImageRoute
    else Unsupported
  }

  /** The routing ignores the case of the extension. */
  lemma RouteIgnoresCase(a: string, b: string)
    requires EqualIgnoringCase(ExtName(a), ExtName(b))
    ensures RouteOf(FileExtension(a)) == RouteOf(FileExtension(b))
  {
    LowerOfEqualIgnoringCase(ExtName(a), ExtName(b));
  }

  /** `path.join(this.uploadsDir, documentId)`. */
  function DocumentDir(uploadsDir: string, documentId: string): string {
    Join(uploadsDir, documentId)
  }

  /** Where the upload is saved: `original<ext>` in the document's folder. */
  function OriginalPath(uploadsDir: string, documentId: string, ext: string): string {
    Join(DocumentDir(uploadsDir, documentId), "original" + ext)
  }

  /** Where the page images of a scanned PDF go. */
  function PagesDir(uploadsDir: string, documentId: string): string {
    Join(DocumentDir(uploadsDir, documentId), "pages")
  }

  /** The text read from a document, its language (`None` for `undefined`),
      and the warnings raised on the way. */
  datatype Reading = Reading(text: string, language: Option<string>, warnings: seq<string>)

  /** `Promise.all(paths.map(p => performOcr(p, languageHint)))`: every
      page's result in page order, or the error of a failing page. */
  function OcrPages(paths: seq<string>, languageHint: Option<string>, engines: Engines): (r: Result<seq<OcrResult>>)
    ensures r.Ok? <==> forall k :: 0 <= k < |paths| ==> PerformOcr(paths[k], languageHint, engines).Ok?
    ensures r.Ok? ==> |r.value| == |paths|
                      && forall k :: 0 <= k < |paths| ==> r.value[k] == PerformOcr(paths[k], languageHint, engines).value
    ensures r.Err? ==> exists k :: 0 <= k < |paths| && PerformOcr(paths[k], languageHint, engines) == Err(r.message)
  {
    if paths == [] then Ok([])
    else
      var first :- PerformOcr(paths[0], languageHint, engines);
      match OcrPages(paths[1..], languageHint, engines)
      case Err(m) => Err(m)
      case Ok(rest) => Ok([first] + rest)
  }

  function PageTexts(results: seq<OcrResult>): (texts: seq<string>)
    ensures |texts| == |results| && forall k :: 0 <= k < |results| ==> texts[k] == results[k].text
  {
    seq(|results|, k requires 0 <= k < |results| => results[k].text)
  }

  function PageLanguages(results: seq<OcrResult>): (langs: seq<string>)
    ensures |langs| == |results| && forall k :: 0 <= k < |results| ==> langs[k] == results[k].detectedLanguage
  {
    seq(|results|, k requires 0 <= k < |results| => results[k].detectedLanguage)
  }

  /** The scanned-PDF attempt: rasterise, recognise every page, join the
      texts and vote on the language. */
  function ReadScanned(file: UploadedFile, pagesDir: string, languageHint: Option<string>, engines: Engines)
    : (r: Result<Reading>)
    ensures var converted := ConvertPdfToImages(file.buffer, pagesDir, engines);
            && (r.Ok? <==> converted.Ok? && forall k :: 0 <= k < |converted.value| ==>
                             PerformOcr(converted.value[k], languageHint, engines).Ok?)
            && (r.Ok? ==> var results := OcrPages(converted.value, languageHint, engines).value;
                          && r.value.text == JoinWith(PageTexts(results), PageSeparator)
                          && r.value.language == MajorityAsWritten(PageLanguages(results))
                          && (r.value.language.None? <==> |converted.value| == 0)
                          && r.value.warnings == [])
  {
    var paths :- ConvertPdfToImages(file.buffer, pagesDir, engines);
    var results :- OcrPages(paths, languageHint, engines);
    Ok(Reading(JoinWith(PageTexts(results), PageSeparator), MajorityAsWritten(PageLanguages(results)), []))
  }

  /** The text layer read directly, with its detected language. */
  function ReadTextLayer(file: UploadedFile, warnings: seq<string>, engines: Engines): (r: Result<Reading>)
    ensures var parsed := engines.parsePdf(file.buffer);
            && (r.Ok? <==> parsed.Ok?)
            && (r.Ok? ==> r.value == Reading(parsed.value.text, Some(DetectLanguage(parsed.value.text, engines.identify)),
                                             warnings))
            && (r.Err? ==> r.message == "Failed to extract text from PDF: " + parsed.message)
  {
    var text :- ExtractTextFromPdf(file.buffer, engines);
    Ok(Reading(text, Some(DetectLanguage(text, engines.identify)), warnings))
  }

  /** The PDF branch: the text layer when it looks usable, otherwise the
      scanned attempt, falling back to the text layer with a warning when
      that attempt fails. */
  function ReadPdf(file: UploadedFile, pagesDir: string, languageHint: Option<string>, engines: Engines)
    : (r: Result<Reading>)
    ensures var parsed := engines.parsePdf(file.buffer);
            IsTextBasedPdf(file.buffer, engines) ==>
              && r.Ok?
              && r.value == Reading(parsed.value.text, Some(DetectLanguage(parsed.value.text, engines.identify)), [])
    ensures var scanned := ReadScanned(file, pagesDir, languageHint, engines);
            !IsTextBasedPdf(file.buffer, engines) && scanned.Ok? ==> r == scanned
    ensures var parsed := engines.parsePdf(file.buffer);
            !IsTextBasedPdf(file.buffer, engines) && ReadScanned(file, pagesDir, languageHint, engines).Err? ==>
              && (r.Ok? <==> parsed.Ok?)
              && (r.Ok? ==> r.value == Reading(parsed.value.text, Some(DetectLanguage(parsed.value.text, engines.identify)),
                                               [FallbackWarning]))
              && (r.Err? ==> r.message == "Failed to extract text from PDF: " + parsed.message)
  {
    if IsTextBasedPdf(file.buffer, engines) then ReadTextLayer(file, [], engines)
    else
      match ReadScanned(file, pagesDir, languageHint, engines)
      case Ok(reading) => Ok(reading)
      case Err(_) => ReadTextLayer(file, [FallbackWarning], engines)
  }

  /** The text of a document of any supported type. */
  function ReadDocument(file: UploadedFile, ext: string, uploadsDir: string, documentId: string,
                        languageHint: Option<string>, engines: Engines): (r: Result<Reading>)
    ensures RouteOf(ext) == PdfRoute ==> r == ReadPdf(file, PagesDir(uploadsDir, documentId), languageHint, engines)
    ensures var ocr := PerformOcr(OriginalPath(uploadsDir, documentId, ext), languageHint, engines);
            RouteOf(ext) == ImageRoute ==>
              && (r.Ok? <==> ocr.Ok?)
              && (r.Ok? ==> r.value == Reading(ocr.value.text, Some(ocr.value.detectedLanguage), []))
              && (r.Err? ==> r.message == ocr.message)
    ensures RouteOf(ext) == Unsupported ==> r == Err("Unsupported file type: " + ext)
  {
    match RouteOf(ext)
    case PdfRoute => ReadPdf(file, PagesDir(uploadsDir, documentId), languageHint, engines)
    case ImageRoute =>
      var ocr :- PerformOcr(OriginalPath(uploadsDir, documentId, ext), languageHint, engines);
      Ok(Reading(ocr.text, Some(ocr.detectedLanguage), []))
    case Unsupported => Err("Unsupported file type: " + ext)
  }

  /** `documentTypeHint || classifyDocument(text)`. */
  function DocumentType(documentTypeHint: Option<string>, text: string): (documentType: string)
    ensures documentTypeHint.Some? && documentTypeHint.value != "" ==> documentType == documentTypeHint.value
    ensures documentTypeHint.None? || documentTypeHint.value == "" ==> documentType == Classify(text)
  {
    match documentTypeHint
    case Some(h) => if h != "" then h else Classify(text)
    case None => Classify(text)
  }

  /** `processDocument(file, languageHint, documentTypeHint)`, for the
      document folder `documentId` under `uploadsDir`. */
  function ProcessDocument(file: UploadedFile, languageHint: Option<string>, documentTypeHint: Option<string>,
                           uploadsDir: string, documentId: string, engines: Engines): (r: Result<DocumentResult>)
    ensures var reading := ReadDocument(file, FileExtension(file.originalname), uploadsDir, documentId,
                                        languageHint, engines);
            && (r.Ok? <==> reading.Ok?)
            && (r.Err? ==> r.message == "Failed to process document: " + reading.message)
            && (r.Ok? ==> && r.value.text == reading.value.text
                          && r.value.language == reading.value.language
                          && (r.value.warnings.None? <==> reading.value.warnings == [])
                          && (r.value.warnings.Some? ==> r.value.warnings.value == reading.value.warnings))
    ensures r.Ok? ==> && r.value.documentType == DocumentType(documentTypeHint, r.value.text)
                      && r.value.fields == ExtractFields(r.value.text, r.value.documentType)
                      && r.value.pages.None?
                      && r.value.metadata == Metadata(file.originalname, file.size, file.mimetype, documentId)
  {
    Wrap("Failed to process document: ", Assemble(file, languageHint, documentTypeHint, uploadsDir, documentId, engines))
  }

  /** The body of the `try` block in `processDocument`. */
  function Assemble(file: UploadedFile, languageHint: Option<string>, documentTypeHint: Option<string>,
                    uploadsDir: string, documentId: string, engines: Engines): (r: Result<DocumentResult>)
    ensures var reading := ReadDocument(file, FileExtension(file.originalname), uploadsDir, documentId,
                                        languageHint, engines);
            && (r.Ok? <==> reading.Ok?)
            && (r.Err? ==> r.message == reading.message)
            && (r.Ok? ==> && r.value.text == reading.value.text
                          && r.value.language == reading.value.language
                          && (r.value.warnings.None? <==> reading.value.warnings == [])
                          && (r.value.warnings.Some? ==> r.value.warnings.value == reading.value.warnings))
    ensures r.Ok? ==> && r.value.documentType == DocumentType(documentTypeHint, r.value.text)
                      && r.value.fields == ExtractFields(r.value.text, r.value.documentType)
                      && r.value.pages.None?
                      && r.value.metadata == Metadata(file.originalname, file.size, file.mimetype, documentId)
  {
    var ext := FileExtension(file.originalname);
    var reading :- ReadDocument(file, ext, uploadsDir, documentId, languageHint, engines);
    var documentType := DocumentType(documentTypeHint, reading.text);
    Ok(DocumentResult(
      documentType,
      reading.language,
      reading.text,
      ExtractFields(reading.text, documentType),
      None,
      Metadata(file.originalname, file.size, file.mimetype, documentId),
      if |reading.warnings| > 0 then Some(reading.warnings) else None))
  }

  /** An extension that is neither `.pdf` nor an image type is refused. */
  lemma UnsupportedType(file: UploadedFile, languageHint: Option<string>, documentTypeHint: Option<string>,
                        uploadsDir: string, documentId: string, engines: Engines)
    requires RouteOf(FileExtension(file.originalname)) == Unsupported
    ensures ProcessDocument(file, languageHint, documentTypeHint, uploadsDir, documentId, engines)
            == Err("Failed to process document: " + ("Unsupported file type: " + FileExtension(file.originalname)))
  {
    var ext := FileExtension(file.originalname);
    assert ReadDocument(file, ext, uploadsDir, documentId, languageHint, engines)
           == Err("Unsupported file type: " + ext);
  }

  /** An image is recognised once, from where it was saved, in the hinted
      language; its text and language are the recogniser's. */
  lemma ImageDocument(file: UploadedFile, languageHint: Option<string>, documentTypeHint: Option<string>,
                      uploadsDir: string, documentId: string, engines: Engines)
    requires FileExtension(file.originalname) in ImageExtensions
    ensures var ext := FileExtension(file.originalname);
            var read := engines.recognize(OriginalPath(uploadsDir, documentId, ext), OcrLanguage(languageHint));
            var r := ProcessDocument(file, languageHint, documentTypeHint, uploadsDir, documentId, engines);
            && (r.Ok? <==> read.Ok?)
            && (r.Ok? ==> && r.value.text == read.value
                          && r.value.language == Some(DetectLanguage(read.value, engines.identify))
                          && r.value.warnings.None?)
            && (r.Err? ==> r.message == "Failed to process document: " + ("Failed to perform OCR: " + read.message))
  {
    var ext := FileExtension(file.originalname);
    assert RouteOf(ext) == ImageRoute;
    var ocr := PerformOcr(OriginalPath(uploadsDir, documentId, ext), languageHint, engines);
    var reading := ReadDocument(file, ext, uploadsDir, documentId, languageHint, engines);
    assert reading.Ok? <==> ocr.Ok?;
    assert reading.Ok? ==> reading.value == Reading(ocr.value.text, Some(ocr.value.detectedLanguage), []);
    assert reading.Err? ==> reading.message == ocr.message;
  }

  /** A PDF with a usable text layer is read from it, with no warning, and
      never fails. */
  lemma TextBasedDocument(file: UploadedFile, languageHint: Option<string>, documentTypeHint: Option<string>,
                          uploadsDir: string, documentId: string, engines: Engines)
    requires FileExtension(file.originalname) == ".pdf" && IsTextBasedPdf(file.buffer, engines)
    ensures var r := ProcessDocument(file, languageHint, documentTypeHint, uploadsDir, documentId, engines);
            && r.Ok?
            && r.value.text == engines.parsePdf(file.buffer).value.text
            && r.value.language == Some(DetectLanguage(r.value.text, engines.identify))
            && r.value.warnings.None?
  {
  }

  /** A scanned PDF whose pages are all rasterised and recognised reads as
      the page texts, page by page, and takes the language most pages have. */
  lemma ScannedDocument(file: UploadedFile, languageHint: Option<string>, documentTypeHint: Option<string>,
                        uploadsDir: string, documentId: string, engines: Engines)
    requires FileExtension(file.originalname) == ".pdf" && !IsTextBasedPdf(file.buffer, engines)
    requires ReadScanned(file, PagesDir(uploadsDir, documentId), languageHint, engines).Ok?
    ensures var paths := ConvertPdfToImages(file.buffer, PagesDir(uploadsDir, documentId), engines).value;
            var r := ProcessDocument(file, languageHint, documentTypeHint, uploadsDir, documentId, engines);
            && r.Ok? && r.value.warnings.None?
            && |paths| == engines.loadPdf(file.buffer).value
            && (forall k :: 0 <= k < |paths| ==> paths[k] == PagePath(PagesDir(uploadsDir, documentId), k))
            && exists results: seq<OcrResult> ::
                 && |results| == |paths|
                 && (forall k :: 0 <= k < |paths| ==> results[k] == PerformOcr(paths[k], languageHint, engines).value)
                 && r.value.text == JoinWith(PageTexts(results), PageSeparator)
                 && r.value.language == MajorityAsWritten(PageLanguages(results))
  {
    var paths := ConvertPdfToImages(file.buffer, PagesDir(uploadsDir, documentId), engines).value;
    var results := OcrPages(paths, languageHint, engines).value;
    assert |results| == |paths|;
  }

  /** When the scanned attempt fails anywhere, the text layer is read after
      all, with exactly one warning; only a failing text layer is an error. */
  lemma FallbackDocument(file: UploadedFile, languageHint: Option<string>, documentTypeHint: Option<string>,
                         uploadsDir: string, documentId: string, engines: Engines)
    requires FileExtension(file.originalname) == ".pdf" && !IsTextBasedPdf(file.buffer, engines)
    requires ReadScanned(file, PagesDir(uploadsDir, documentId), languageHint, engines).Err?
    ensures var parsed := engines.parsePdf(file.buffer);
            var r := ProcessDocument(file, languageHint, documentTypeHint, uploadsDir, documentId, engines);
            && (r.Ok? <==> parsed.Ok?)
            && (r.Ok? ==> && r.value.warnings == Some([FallbackWarning])
                          && r.value.text == parsed.value.text
                          && r.value.language == Some(DetectLanguage(r.value.text, engines.identify)))
            && (r.Err? ==> r.message == "Failed to process document: " + ("Failed to extract text from PDF: " + parsed.message))
  {
    var ext := FileExtension(file.originalname);
    var reading := ReadDocument(file, ext, uploadsDir, documentId, languageHint, engines);
    assert reading == ReadTextLayer(file, [FallbackWarning], engines);
  }

  /** Warnings are present exactly when a scanned PDF fell back to its text layer. */
  lemma WarningsOnlyOnFallback(file: UploadedFile, languageHint: Option<string>, documentTypeHint: Option<string>,
                               uploadsDir: string, documentId: string, engines: Engines)
    requires ProcessDocument(file, languageHint, documentTypeHint, uploadsDir, documentId, engines).Ok?
    ensures var r := ProcessDocument(file, languageHint, documentTypeHint, uploadsDir, documentId, engines);
            r.value.warnings.Some? <==>
              && FileExtension(file.originalname) == ".pdf"
              && !IsTextBasedPdf(file.buffer, engines)
              && ReadScanned(file, PagesDir(uploadsDir, documentId), languageHint, engines).Err?
  {
  }

  /** The language of a fully processed scanned PDF is undefined exactly
      when it has no pages; otherwise it is the first most frequent page
      language, the same as the corrected vote gives. */
  lemma ScannedLanguageIsVote(file: UploadedFile, languageHint: Option<string>, documentTypeHint: Option<string>,
                              uploadsDir: string, documentId: string, engines: Engines)
    requires FileExtension(file.originalname) == ".pdf" && !IsTextBasedPdf(file.buffer, engines)
    requires ReadScanned(file, PagesDir(uploadsDir, documentId), languageHint, engines).Ok?
    ensures var paths := ConvertPdfToImages(file.buffer, PagesDir(uploadsDir, documentId), engines).value;
            var langs := PageLanguages(OcrPages(paths, languageHint, engines).value);
            var r := ProcessDocument(file, languageHint, documentTypeHint, uploadsDir, documentId, engines);
            && r.Ok?
            && (r.value.language.None? <==> engines.loadPdf(file.buffer).value == 0)
            && (r.value.language.Some? ==> && IsFirstMostFrequent(langs, r.value.language.value)
                                            && r.value.language.value == MajorityLanguage(langs))
  {
    var paths := ConvertPdfToImages(file.buffer, PagesDir(uploadsDir, documentId), engines).value;
    var langs := PageLanguages(OcrPages(paths, languageHint, engines).value);
    if langs != [] {
      MajorityIsFirstMostFrequent(langs);
    }
  }

  /** A PDF that loads with no pages and has an empty text layer is judged
      scanned, rasterises to no images, and resolves with empty text and
      no language. */
  lemma ZeroPageScannedDocument(file: UploadedFile, languageHint: Option<string>, documentTypeHint: Option<string>,
                                uploadsDir: string, documentId: string, engines: Engines)
    requires FileExtension(file.originalname) == ".pdf"
    requires engines.parsePdf(file.buffer) == Ok(PdfData("", 0)) && engines.loadPdf(file.buffer) == Ok(0)
    ensures var r := ProcessDocument(file, languageHint, documentTypeHint, uploadsDir, documentId, engines);
            r.Ok? && r.value.text == "" && r.value.language == None && r.value.warnings.None?
  {
    var pagesDir := PagesDir(uploadsDir, documentId);
    assert !IsTextBasedPdf(file.buffer, engines);
    assert ConvertPdfToImages(file.buffer, pagesDir, engines) == Ok([]);
    assert OcrPages([], languageHint, engines) == Ok([]);
    assert ReadScanned(file, pagesDir, languageHint, engines) == Ok(Reading("", None, []));
  }
}

=== FILE: regex.dfy ===
/** The fragment of JavaScript regular expressions the field extractor uses,
    with the semantics of a backtracking engine under the `i` flag: literal
    words and alternations `(?:w1|w2)`, greedy `[...]*` and `[...]?` over a
    character class, and one final capturing group `([...]+)`. */
module Regex {
  import opened Results
  import opened JsStrings

  /** The character classes of the field patterns. */
  datatype CharClass =
    | Space         // \s
    | Separator     // [:.\s]
    | CurrencySign  // [$€£]
    | Identifier    // [A-Za-z0-9-]
    | DateChar      // [\d\/\-\.]
    | AmountChar    // [\d,.]

  /** Class membership. Under the `i` flag without `u`, no non-ASCII
      character folds onto an ASCII one, so the only class that case folding
      could widen, `Identifier`, already holds both cases. */
  predicate InClass(c: char, k: CharClass) {
    match k
    case Space => IsJsWhitespace(c)
    case Separator => c == ':' || c == '.' || IsJsWhitespace(c)
    case CurrencySign => c == '$' || c == '\U{20AC}' || c == '\U{00A3}'
    case Identifier => ('A' <= c <= 'Z') || ('a' <= c <= 'z') || IsDigit(c) || c == '-'
    case DateChar => IsDigit(c) || c == '/' || c == '-' || c == '.'
    case AmountChar => IsDigit(c) || c == ',' || c == '.'
  }

  /** One element of a pattern. A plain word is a `OneOf` with one alternative. */
  datatype Item =
    | OneOf(words: seq<string>)  // (?:w1|w2|...), alternatives tried left to right
    | Star(cls: CharClass)       // [...]*, longest run tried first
    | Opt(cls: CharClass)        // [...]?, taking the character tried first

  /** The items, then one capturing group `([capture]+)`. */
  datatype Pattern = Pattern(items: seq<Item>, capture: CharClass)

  /** One way of matching: per item the alternative taken (`OneOf`), the
      number of repetitions (`Star`) or 1/0 for taken/skipped (`Opt`); then
      the bounds of the captured text. */
  datatype Trace = Trace(choices: seq<nat>, start: nat, end: nat)

  function Prepend(c: nat, t: Trace): Trace {
    Trace([c] + t.choices, t.start, t.end)
  }

  function Tail(t: Trace): Trace
    requires t.choices != []
  {
    Trace(t.choices[1..], t.start, t.end)
  }

  /** `w` occurs at `pos` ignoring ASCII case. */
  predicate WordAt(text: string, pos: nat, w: string) {
    pos + |w| <= |text| && forall k :: 0 <= k < |w| ==> LowerChar(text[pos + k]) == LowerChar(w[k])
  }

  /** Every character of `text[a..b]` lies in class `k`. */
  predicate RunOf(text: string, a: nat, b: nat, k: CharClass) {
    a <= b <= |text| && forall t :: a <= t < b ==> InClass(text[t], k)
  }

  /** Length of the longest run of class `k` starting at `pos`. */
  function RunLength(text: string, pos: nat, k: CharClass): (n: nat)
    requires pos <= |text|
    ensures RunOf(text, pos, pos + n, k)
    ensures pos + n == |text| || !InClass(text[pos + n], k)
    decreases |text| - pos
  {
    if pos < |text| && InClass(text[pos], k) then 1 + RunLength(text, pos + 1, k) else 0
  }

  /** A run of class `k` from `pos` is never longer than the longest one. */
  lemma RunWithinLongest(text: string, pos: nat, m: nat, k: CharClass)
    requires pos <= |text| && RunOf(text, pos, m, k)
    ensures m <= pos + RunLength(text, pos, k)
  {
  }

  /** A maximal run has the length `RunLength` computes. */
  lemma {:induction false} RunLengthOf(text: string, pos: nat, k: CharClass, n: nat)
    requires RunOf(text, pos, pos + n, k)
    requires pos + n == |text| || !InClass(text[pos + n], k)
    ensures RunLength(text, pos, k) == n
    decreases n
  {
    if n > 0 {
      RunLengthOf(text, pos + 1, k, n - 1);
    }
  }

  /** `items` followed by the capturing group match `text` from `pos` the way `t` says. */
  ghost predicate MatchesVia(text: string, pos: nat, items: seq<Item>, cap: CharClass, t: Trace)
    decreases |items|
  {
    |t.choices| == |items| &&
    if items == [] then
      pos == t.start && t.start < t.end && RunOf(text, t.start, t.end, cap)
    else
      var c := t.choices[0];
      match items[0]
      case OneOf(ws) =>
        c < |ws| && WordAt(text, pos, ws[c]) && MatchesVia(text, pos + |ws[c]|, items[1..], cap, Tail(t))
      case Star(k) =>
        RunOf(text, pos, pos + c, k) && MatchesVia(text, pos + c, items[1..], cap, Tail(t))
      case Opt(k) =>
        c <= 1 && RunOf(text, pos, pos + c, k) && MatchesVia(text, pos + c, items[1..], cap, Tail(t))
  }

  /** A backtracking engine tries `t` no later than `u`: at the first item
      where they differ `t` takes more repetitions, takes the optional
      character, or takes an earlier alternative; if all choices agree, its
      capture is at least as long (the group is greedy). */
  ghost predicate TriedFirst(items: seq<Item>, t: Trace, u: Trace)
    requires |t.choices| == |items| == |u.choices|
    decreases |items|
  {
    if items == [] then t.end >= u.end
    else if t.choices[0] != u.choices[0] then
      match items[0]
      case OneOf(_) => t.choices[0] < u.choices[0]
      case Star(_) => t.choices[0] > u.choices[0]
      case Opt(_) => t.choices[0] > u.choices[0]
    else TriedFirst(items[1..], Tail(t), Tail(u))
  }

  /** `t` is the match a backtracking engine reports when started at `pos`. */
  ghost predicate Preferred(text: string, pos: nat, items: seq<Item>, cap: CharClass, t: Trace) {
    MatchesVia(text, pos, items, cap, t)
    && forall u :: MatchesVia(text, pos, items, cap, u) ==> TriedFirst(items, t, u)
  }

  /** The engine's attempt to match at `pos`, backtracking through the items' choices in preference order. */
  function MatchAt(text: string, pos: nat, items: seq<Item>, cap: CharClass): Option<Trace>
    requires pos <= |text|
    decreases |items|, 1, 0
  {
    if items == [] then
      var n := RunLength(text, pos, cap);
      if n > 0 then Some(Trace([], pos, pos + n)) else None
    else
      match items[0]
      case OneOf(ws) => TryWords(text, pos, items, cap, 0)
      case Star(k) => TryRepetitions(text, pos, items, cap, RunLength(text, pos, k))
      case Opt(k) =>
        var taken := if pos < |text| && InClass(text[pos], k) then MatchAt(text, pos + 1, items[1..], cap) else None;
        if taken.Some? then Some(Prepend(1, taken.value))
        else
          var skipped := MatchAt(text, pos, items[1..], cap);
          if skipped.Some? then Some(Prepend(0, skipped.value)) else None
  }

  /** Tries alternatives `a`, `a + 1`, ... of the leading `OneOf`. */
  function TryWords(text: string, pos: nat, items: seq<Item>, cap: CharClass, a: nat): Option<Trace>
    requires pos <= |text|
    requires items != [] && items[0].OneOf? && a <= |items[0].words|
    decreases |items|, 0, |items[0].words| - a
  {
    var ws := items[0].words;
    if a == |ws| then None
    else
      var r := if WordAt(text, pos, ws[a]) then MatchAt(text, pos + |ws[a]|, items[1..], cap) else None;
      if r.Some? then Some(Prepend(a, r.value)) else TryWords(text, pos, items, cap, a + 1)
  }

  /** Tries `n`, `n - 1`, ..., 0 repetitions of the leading `Star`. */
  function TryRepetitions(text: string, pos: nat, items: seq<Item>, cap: CharClass, n: nat): Option<Trace>
    requires items != [] && items[0].Star? && RunOf(text, pos, pos + n, items[0].cls)
    decreases |items|, 0, n
  {
    var r := MatchAt(text, pos + n, items[1..], cap);
    if r.Some? then Some(Prepend(n, r.value))
    else if n == 0 then None
    else TryRepetitions(text, pos, items, cap, n - 1)
  }

  lemma TailOfPrepend(c: nat, t: Trace)
    ensures Tail(Prepend(c, t)) == t
  {
    assert ([c] + t.choices)[1..] == t.choices;
  }

  /** The engine's attempt at `pos` finds the preferred match when there is
      one and fails only when no match starts at `pos`. */
  lemma {:induction false} MatchAtCorrect(text: string, pos: nat, items: seq<Item>, cap: CharClass)
    requires pos <= |text|
    ensures MatchAt(text, pos, items, cap).Some? ==> Preferred(text, pos, items, cap, MatchAt(text, pos, items, cap).value)
    ensures MatchAt(text, pos, items, cap).None? ==> forall u :: !MatchesVia(text, pos, items, cap, u)
    decreases |items|, 1, 0
  {
    var r := MatchAt(text, pos, items, cap);
    if items == [] {
      var n := RunLength(text, pos, cap);
      forall u | MatchesVia(text, pos, items, cap, u)
        ensures n > 0 && u.end <= pos + n
      {
        RunWithinLongest(text, pos, u.end, cap);
      }
    } else {
      match items[0]
      case OneOf(ws) =>
        TryWordsCorrect(text, pos, items, cap, 0);
      case Star(k) =>
        var n := RunLength(text, pos, k);
        TryRepetitionsCorrect(text, pos, items, cap, n);
        forall u | MatchesVia(text, pos, items, cap, u)
          ensures u.choices[0] <= n
        {
          RunWithinLongest(text, pos, pos + u.choices[0], k);
        }
      case Opt(k) =>
        OptCorrect(text, pos, items, cap);
    }
  }

  /** How a match of an `Opt` item decomposes. */
  lemma OptChoices(text: string, pos: nat, items: seq<Item>, cap: CharClass, u: Trace)
    requires items != [] && items[0].Opt? && MatchesVia(text, pos, items, cap, u)
    ensures u.choices[0] == 1 ==> pos < |text| && InClass(text[pos], items[0].cls)
                                  && MatchesVia(text, pos + 1, items[1..], cap, Tail(u))
    ensures u.choices[0] == 0 ==> MatchesVia(text, pos, items[1..], cap, Tail(u))
    ensures u.choices[0] <= 1
  {
  }

  lemma {:induction false} OptCorrect(text: string, pos: nat, items: seq<Item>, cap: CharClass)
    requires pos <= |text| && items != [] && items[0].Opt?
    ensures MatchAt(text, pos, items, cap).Some? ==> Preferred(text, pos, items, cap, MatchAt(text, pos, items, cap).value)
    ensures MatchAt(text, pos, items, cap).None? ==> forall u :: !MatchesVia(text, pos, items, cap, u)
    decreases |items|, 0, 0
  {
    var k := items[0].cls;
    var rest := items[1..];
    var can := pos < |text| && InClass(text[pos], k);
    var taken := if can then MatchAt(text, pos + 1, rest, cap) else None;
    var skipped := MatchAt(text, pos, rest, cap);
    MatchAtCorrect(text, pos, rest, cap);
    if can {
      MatchAtCorrect(text, pos + 1, rest, cap);
    }
    assert MatchAt(text, pos, items, cap)
        == if taken.Some? then Some(Prepend(1, taken.value))
           else if skipped.Some? then Some(Prepend(0, skipped.value)) else None;
    if taken.Some? {
      OptTaken(text, pos, items, cap, taken.value);
    } else if skipped.Some? {
      OptSkipped(text, pos, items, cap, skipped.value);
    } else {
      forall u | MatchesVia(text, pos, items, cap, u)
        ensures u.choices[0] == 1 ==> can && MatchesVia(text, pos + 1, rest, cap, Tail(u))
        ensures u.choices[0] != 1 ==> MatchesVia(text, pos, rest, cap, Tail(u))
      {
        OptChoices(text, pos, items, cap, u);
      }
    }
  }

  lemma OptTaken(text: string, pos: nat, items: seq<Item>, cap: CharClass, t: Trace)
    requires items != [] && items[0].Opt?
    requires pos < |text| && InClass(text[pos], items[0].cls)
    requires Preferred(text, pos + 1, items[1..], cap, t)
    ensures Preferred(text, pos, items, cap, Prepend(1, t))
  {
    var rest := items[1..];
    TailOfPrepend(1, t);
    assert RunOf(text, pos, pos + 1, items[0].cls);
    assert MatchesVia(text, pos, items, cap, Prepend(1, t));
    forall u | MatchesVia(text, pos, items, cap, u)
      ensures TriedFirst(items, Prepend(1, t), u)
    {
      OptChoices(text, pos, items, cap, u);
      if u.choices[0] == 1 {
        assert TriedFirst(rest, t, Tail(u));
      }
    }
  }

  lemma OptSkipped(text: string, pos: nat, items: seq<Item>, cap: CharClass, t: Trace)
    requires items != [] && items[0].Opt?
    requires forall u :: MatchesVia(text, pos, items, cap, u) ==> u.choices[0] == 0
    requires Preferred(text, pos, items[1..], cap, t)
    ensures Preferred(text, pos, items, cap, Prepend(0, t))
  {
    var rest := items[1..];
    TailOfPrepend(0, t);
    assert RunOf(text, pos, pos, items[0].cls);
    assert MatchesVia(text, pos, items, cap, Prepend(0, t));
    forall u | MatchesVia(text, pos, items, cap, u)
      ensures TriedFirst(items, Prepend(0, t), u)
    {
      OptChoices(text, pos, items, cap, u);
      assert TriedFirst(rest, t, Tail(u));
    }
  }

  lemma {:induction false} TryWordsCorrect(text: string, pos: nat, items: seq<Item>, cap: CharClass, a: nat)
    requires pos <= |text|
    requires items != [] && items[0].OneOf? && a <= |items[0].words|
    ensures var r := TryWords(text, pos, items, cap, a);
            r.Some? ==> MatchesVia(text, pos, items, cap, r.value) && r.value.choices[0] >= a
                        && forall u :: MatchesVia(text, pos, items, cap, u) && u.choices[0] >= a ==> TriedFirst(items, r.value, u)
    ensures TryWords(text, pos, items, cap, a).None? ==>
              forall u :: MatchesVia(text, pos, items, cap, u) ==> u.choices[0] < a
    decreases |items|, 0, |items[0].words| - a
  {
    var ws := items[0].words;
    var rest := items[1..];
    if a < |ws| {
      var w := ws[a];
      var here := WordAt(text, pos, w);
      if here {
        MatchAtCorrect(text, pos + |w|, rest, cap);
      }
      var r := if here then MatchAt(text, pos + |w|, rest, cap) else None;
      if r.Some? {
        assert TryWords(text, pos, items, cap, a) == Some(Prepend(a, r.value));
        WordTaken(text, pos, items, cap, a, r.value);
      } else {
        assert TryWords(text, pos, items, cap, a) == TryWords(text, pos, items, cap, a + 1);
        TryWordsCorrect(text, pos, items, cap, a + 1);
        forall u | MatchesVia(text, pos, items, cap, u)
          ensures u.choices[0] == a ==> here && MatchesVia(text, pos + |w|, rest, cap, Tail(u))
        {
        }
      }
    }
  }

  lemma WordTaken(text: string, pos: nat, items: seq<Item>, cap: CharClass, a: nat, t: Trace)
    requires items != [] && items[0].OneOf? && a < |items[0].words|
    requires WordAt(text, pos, items[0].words[a])
    requires Preferred(text, pos + |items[0].words[a]|, items[1..], cap, t)
    ensures MatchesVia(text, pos, items, cap, Prepend(a, t))
    ensures forall u :: MatchesVia(text, pos, items, cap, u) && u.choices[0] >= a ==> TriedFirst(items, Prepend(a, t), u)
  {
    var rest := items[1..];
    TailOfPrepend(a, t);
    assert MatchesVia(text, pos, items, cap, Prepend(a, t));
    forall u | MatchesVia(text, pos, items, cap, u) && u.choices[0] >= a
      ensures TriedFirst(items, Prepend(a, t), u)
    {
      if u.choices[0] == a {
        assert TriedFirst(rest, t, Tail(u));
      }
    }
  }

  lemma RepetitionsTaken(text: string, pos: nat, items: seq<Item>, cap: CharClass, n: nat, t: Trace)
    requires items != [] && items[0].Star? && RunOf(text, pos, pos + n, items[0].cls)
    requires Preferred(text, pos + n, items[1..], cap, t)
    ensures MatchesVia(text, pos, items, cap, Prepend(n, t))
    ensures forall u :: MatchesVia(text, pos, items, cap, u) && u.choices[0] <= n ==> TriedFirst(items, Prepend(n, t), u)
  {
    var rest := items[1..];
    TailOfPrepend(n, t);
    assert MatchesVia(text, pos, items, cap, Prepend(n, t));
    forall u | MatchesVia(text, pos, items, cap, u) && u.choices[0] <= n
      ensures TriedFirst(items, Prepend(n, t), u)
    {
      if u.choices[0] == n {
        assert TriedFirst(rest, t, Tail(u));
      }
    }
  }

  lemma {:induction false} TryRepetitionsCorrect(text: string, pos: nat, items: seq<Item>, cap: CharClass, n: nat)
    requires items != [] && items[0].Star? && RunOf(text, pos, pos + n, items[0].cls)
    ensures var r := TryRepetitions(text, pos, items, cap, n);
            r.Some? ==> MatchesVia(text, pos, items, cap, r.value) && r.value.choices[0] <= n
                        && forall u :: MatchesVia(text, pos, items, cap, u) && u.choices[0] <= n ==> TriedFirst(items, r.value, u)
    ensures TryRepetitions(text, pos, items, cap, n).None? ==>
              forall u :: MatchesVia(text, pos, items, cap, u) ==> u.choices[0] > n
    decreases |items|, 0, n
  {
    var rest := items[1..];
    MatchAtCorrect(text, pos + n, rest, cap);
    var r := MatchAt(text, pos + n, rest, cap);
    if r.Some? {
      RepetitionsTaken(text, pos, items, cap, n, r.value);
    } else {
      if n > 0 {
        TryRepetitionsCorrect(text, pos, items, cap, n - 1);
      }
      forall u | MatchesVia(text, pos, items, cap, u)
        ensures u.choices[0] == n ==> MatchesVia(text, pos + n, rest, cap, Tail(u))
      {
      }
    }
  }

  /** Every match ends with a non-empty capture drawn from the group's class. */
  lemma {:induction false} CaptureInClass(text: string, pos: nat, items: seq<Item>, cap: CharClass, t: Trace)
    requires MatchesVia(text, pos, items, cap, t)
    ensures pos <= t.start < t.end <= |text|
    ensures RunOf(text, t.start, t.end, cap)
    decreases |items|
  {
    if items != [] {
      var c := t.choices[0];
      match items[0]
      case OneOf(ws) => CaptureInClass(text, pos + |ws[c]|, items[1..], cap, Tail(t));
      case Star(k) => CaptureInClass(text, pos + c, items[1..], cap, Tail(t));
      case Opt(k) => CaptureInClass(text, pos + c, items[1..], cap, Tail(t));
    }
  }

  /** A capture followed by one more character of its class can be lengthened by it. */
  lemma {:induction false} ExtendCapture(text: string, pos: nat, items: seq<Item>, cap: CharClass, t: Trace)
    requires MatchesVia(text, pos, items, cap, t)
    requires t.end < |text| && InClass(text[t.end], cap)
    ensures MatchesVia(text, pos, items, cap, Trace(t.choices, t.start, t.end + 1))
    decreases |items|
  {
    if items != [] {
      var c := t.choices[0];
      var u := Trace(t.choices, t.start, t.end + 1);
      assert Tail(u) == Trace(Tail(t).choices, Tail(t).start, Tail(t).end + 1);
      match items[0]
      case OneOf(ws) => ExtendCapture(text, pos + |ws[c]|, items[1..], cap, Tail(t));
      case Star(k) => ExtendCapture(text, pos + c, items[1..], cap, Tail(t));
      case Opt(k) => ExtendCapture(text, pos + c, items[1..], cap, Tail(t));
    }
  }

  /** Between two ways of matching that make the same choices, the engine prefers the longer capture. */
  lemma {:induction false} TriedFirstSameChoices(items: seq<Item>, t: Trace, u: Trace)
    requires |t.choices| == |items| && t.choices == u.choices
    ensures TriedFirst(items, t, u) <==> t.end >= u.end
    decreases |items|
  {
    if items != [] {
      TriedFirstSameChoices(items[1..], Tail(t), Tail(u));
    }
  }

  /** The preferred match's capture is as long as its class allows: it ends
      at the end of the text or before a character outside the class. */
  lemma CaptureIsLongest(text: string, pos: nat, items: seq<Item>, cap: CharClass, t: Trace)
    requires Preferred(text, pos, items, cap, t)
    ensures t.end <= |text|
    ensures t.end < |text| ==> !InClass(text[t.end], cap)
  {
    CaptureInClass(text, pos, items, cap, t);
    var u := Trace(t.choices, t.start, t.end + 1);
    TriedFirstSameChoices(items, t, u);
    if t.end < |text| && InClass(text[t.end], cap) {
      ExtendCapture(text, pos, items, cap, t);
    }
  }

  /** Where a match begins, with the engine's preferred way of matching there. */
  datatype Located = Located(at: nat, trace: Trace)

  /** Some match of `p` begins at `i`. */
  ghost predicate MatchesAt(text: string, p: Pattern, i: nat) {
    exists u :: MatchesVia(text, i, p.items, p.capture, u)
  }

  /** `text.match(p)` without the `g` flag: the first start position, from
      `from` on, at which the engine matches. */
  function FirstMatch(text: string, p: Pattern, from: nat): (r: Option<Located>)
    requires from <= |text|
    ensures r.Some? ==> from <= r.value.at <= |text|
                        && Preferred(text, r.value.at, p.items, p.capture, r.value.trace)
                        && forall i :: from <= i < r.value.at ==> !MatchesAt(text, p, i)
    ensures r.None? ==> forall i :: from <= i <= |text| ==> !MatchesAt(text, p, i)
    decreases |text| - from
  {
    MatchAtCorrect(text, from, p.items, p.capture);
    var here := MatchAt(text, from, p.items, p.capture);
    if here.Some? then Some(Located(from, here.value))
    else if from == |text| then None
    else FirstMatch(text, p, from + 1)
  }

  /** The first capture group of `text.match(p)`, when the pattern matches. */
  function Capture(text: string, p: Pattern): (r: Option<string>)
    ensures r.Some? <==> exists i :: 0 <= i <= |text| && MatchesAt(text, p, i)
    ensures r.Some? ==> r.value != [] && forall k :: 0 <= k < |r.value| ==> InClass(r.value[k], p.capture)
    ensures r.Some? ==> var f := FirstMatch(text, p, 0);
                        && f.Some? && f.value.trace.start <= f.value.trace.end <= |text|
                        && r.value == text[f.value.trace.start..f.value.trace.end]
  {
    match FirstMatch(text, p, 0)
    case None => None
    case Some(f) =>
      CaptureInClass(text, f.at, p.items, p.capture, f.trace);
      assert MatchesAt(text, p, f.at);
      Some(text[f.trace.start..f.trace.end])
  }

  /** A pattern that begins with a word cannot match where none of its
      alternatives occurs. */
  lemma NoMatchWithoutFirstWord(text: string, p: Pattern, i: nat)
    requires p.items != [] && p.items[0].OneOf?
    requires forall a :: 0 <= a < |p.items[0].words| ==> !WordAt(text, i, p.items[0].words[a])
    ensures !MatchesAt(text, p, i)
  {
  }

  /** The search passes over start positions at which nothing matches. */
  lemma {:induction false} FirstMatchSkips(text: string, p: Pattern, from: nat, to: nat)
    requires from <= to <= |text|
    requires forall i :: from <= i < to ==> !MatchesAt(text, p, i)
    ensures FirstMatch(text, p, from) == FirstMatch(text, p, to)
    decreases (to as int) - (from as int)
  {
    if from < to {
      MatchAtCorrect(text, from, p.items, p.capture);
      assert MatchAt(text, from, p.items, p.capture).Some? ==> MatchesAt(text, p, from);
      FirstMatchSkips(text, p, from + 1, to);
    }
  }

  /** One step of the engine for each kind of item, when the first choice it
      tries succeeds; used to run the engine on concrete text. */
  lemma StepCapture(text: string, pos: nat, cap: CharClass, n: nat)
    requires pos <= |text| && n > 0 && RunLength(text, pos, cap) == n
    ensures MatchAt(text, pos, [], cap) == Some(Trace([], pos, pos + n))
  {
  }

  lemma StepWord(text: string, pos: nat, items: seq<Item>, cap: CharClass, a: nat, t: Trace)
    requires pos <= |text| && items != [] && items[0].OneOf? && a < |items[0].words|
    requires forall b :: 0 <= b < a ==> !WordAt(text, pos, items[0].words[b])
    requires WordAt(text, pos, items[0].words[a])
    requires MatchAt(text, pos + |items[0].words[a]|, items[1..], cap) == Some(t)
    ensures MatchAt(text, pos, items, cap) == Some(Prepend(a, t))
  {
    var b := a;
    while b > 0
      invariant 0 <= b <= a
      invariant TryWords(text, pos, items, cap, b) == Some(Prepend(a, t))
    {
      b := b - 1;
    }
  }

  lemma StepStar(text: string, pos: nat, items: seq<Item>, cap: CharClass, n: nat, t: Trace)
    requires pos <= |text| && items != [] && items[0].Star? && RunLength(text, pos, items[0].cls) == n
    requires MatchAt(text, pos + n, items[1..], cap) == Some(t)
    ensures MatchAt(text, pos, items, cap) == Some(Prepend(n, t))
  {
  }

  lemma StepOptTaken(text: string, pos: nat, items: seq<Item>, cap: CharClass, t: Trace)
    requires pos < |text| && items != [] && items[0].Opt? && InClass(text[pos], items[0].cls)
    requires MatchAt(text, pos + 1, items[1..], cap) == Some(t)
    ensures MatchAt(text, pos, items, cap) == Some(Prepend(1, t))
  {
  }
}

=== FILE: results.dfy ===
/** Failure-carrying values shared by every component of the pipeline.
    A JavaScript exception is modelled as `Err` carrying the error's message. */
module Results {

  datatype Option<+T> = None | Some(value: T)

  datatype Result<+T> = Ok(value: T) | Err(message: string) {

    predicate IsFailure() {
      Err?
    }

    function PropagateFailure<U>(): Result<U>
      requires Err?
    {
      Err(message)
    }

    function Extract(): T
      requires Ok?
    {
      value
    }
  }

  /** True iff `prefix` is an initial segment of `s`. */
  predicate StartsWith(s: string, prefix: string) {
    |prefix| <= |s| && s[..|prefix|] == prefix
  }

  /** Re-throwing a caught error under a new message prefix, as
      `throw new Error(prefix + error.message)` does. */
  function Wrap<T>(prefix: string, r: Result<T>): (w: Result<T>)
    ensures w.Ok? <==> r.Ok?
    ensures r.Ok? ==> w == r
    ensures r.Err? ==> w.message == prefix + r.message && StartsWith(w.message, prefix)
  {
    match r
    case Ok(v) => Ok(v)
    case Err(m) => Err(prefix + m)
  }
}

=== FILE: substring.dfy ===
/** Substring search: the scanner behind `String.prototype.includes`. */
module Substring {
  import opened Results

  /** `w` occurs in `s` starting at index `i`. */
  predicate OccursAt(s: string, i: nat, w: string) {
    i + |w| <= |s| && s[i..i + |w|] == w
  }

  /** `w` occurs somewhere in `s`. */
  ghost predicate Contains(s: string, w: string) {
    exists i: nat :: OccursAt(s, i, w)
  }

  /** The leftmost occurrence of `w` in `s` at or after `from`. */
  function IndexOf(s: string, w: string, from: nat): (r: Option<nat>)
    requires from <= |s|
    ensures r.Some? ==> from <= r.value && OccursAt(s, r.value, w)
    ensures r.Some? ==> forall j: nat :: from <= j < r.value ==> !OccursAt(s, j, w)
    ensures r.None? ==> forall j: nat :: from <= j ==> !OccursAt(s, j, w)
    decreases |s| - from
  {
    if OccursAt(s, from, w) then Some(from)
    else if from == |s| then None
    else IndexOf(s, w, from + 1)
  }

  /** `s.includes(w)`. */
  function Includes(s: string, w: string): (b: bool)
    ensures b <==> Contains(s, w)
  {
    IndexOf(s, w, 0).Some?
  }

  /** An occurrence of a longer word contains one of each of its prefixes. */
  lemma ContainsPrefix(s: string, w: string, n: nat)
    requires n <= |w| && Contains(s, w)
    ensures Contains(s, w[..n])
  {
    var i: nat :| OccursAt(s, i, w);
    assert s[i..i + n] == w[..n];
    assert OccursAt(s, i, w[..n]);
  }
}

=== FILE: vote.dfy ===
/** The per-document language of a scanned PDF: the language detected on
    most pages, ties going to the language met first. */
module LanguageVote {
  import opened Results
  import OcrService

  /** Number of pages whose language is `l`. */
  function Count(langs: seq<string>, l: string): (n: nat)
    ensures n <= |langs|
    ensures n > 0 <==> l in langs
  {
    if langs == [] then 0
    else
      assert langs == langs[..|langs| - 1] + [langs[|langs| - 1]];
      Count(langs[..|langs| - 1], l) + if langs[|langs| - 1] == l then 1 else 0
  }

  /** Index of the first page whose language is `l`; the number of pages
      when there is none. */
  function FirstIndex(langs: seq<string>, l: string): (i: nat)
    ensures i <= |langs|
    ensures i < |langs| <==> l in langs
    ensures i < |langs| ==> langs[i] == l
    ensures forall k :: 0 <= k < i ==> langs[k] != l
  {
    if langs == [] then 0
    else if l in langs[..|langs| - 1] then FirstIndex(langs[..|langs| - 1], l)
    else if langs[|langs| - 1] == l then |langs| - 1
    else
      assert langs == langs[..|langs| - 1] + [langs[|langs| - 1]];
      |langs|
  }

  /** The `languageCounts` object: its keys in insertion order and the
      value of each key. */
  datatype Counts = Counts(keys: seq<string>, values: map<string, nat>)

  /** The keys listed are exactly the keys that have values. */
  ghost predicate WellFormed(c: Counts) {
    forall x :: x in c.values <==> x in c.keys
  }

  /** `languageCounts[l] = (languageCounts[l] || 0) + 1`: the value of `l`
      goes up by one, a new key going last. */
  function Bump(c: Counts, l: string): (r: Counts)
    requires WellFormed(c)
    ensures WellFormed(r)
    ensures l in r.values && r.values[l] == if l in c.values then c.values[l] + 1 else 1
    ensures forall x :: x in c.values && x != l ==> x in r.values && r.values[x] == c.values[x]
    ensures l in c.values ==> r.keys == c.keys
    ensures l !in c.values ==> r.keys == c.keys + [l]
  {
    if l in c.values then Counts(c.keys, c.values[l := c.values[l] + 1])
    else Counts(c.keys + [l], c.values[l := 1])
  }

  /** `languageCounts` after counting every page's language. */
  function Tally(langs: seq<string>): (c: Counts)
    ensures WellFormed(c)
  {
    if langs == [] then Counts([], map[]) else Bump(Tally(langs[..|langs| - 1]), langs[|langs| - 1])
  }

  /** The tally has a key for exactly the languages some page has, and its
      value is the number of those pages. */
  lemma {:induction false} TallyCounts(langs: seq<string>)
    ensures forall x :: x in Tally(langs).values <==> x in langs
    ensures forall x :: x in Tally(langs).values ==> Tally(langs).values[x] == Count(langs, x)
  {
    if langs != [] {
      var init, l := langs[..|langs| - 1], langs[|langs| - 1];
      assert langs == init + [l];
      TallyCounts(init);
    }
  }

  /** Appending a page leaves the first page of earlier languages alone,
      and a new language first appears on the appended page. */
  lemma FirstIndexAppend(init: seq<string>, l: string, x: string)
    ensures x in init ==> FirstIndex(init + [l], x) == FirstIndex(init, x) < |init|
    ensures x !in init && x == l ==> FirstIndex(init + [l], x) == |init|
  {
    assert (init + [l])[..|init|] == init;
  }

  /** Keys come in the order their languages first appear. */
  lemma {:induction false} TallyOrderAt(langs: seq<string>, i: nat, j: nat)
    requires i < j < |Tally(langs).keys|
    ensures FirstIndex(langs, Tally(langs).keys[i]) < FirstIndex(langs, Tally(langs).keys[j])
  {
    assert langs != [];
    var init, l := langs[..|langs| - 1], langs[|langs| - 1];
    assert langs == init + [l];
    var before := Tally(init);
    TallyCounts(init);
    var x := before.keys[i];
    assert Tally(langs).keys[i] == x && x in init;
    FirstIndexAppend(init, l, x);
    if j < |before.keys| {
      var y := before.keys[j];
      assert Tally(langs).keys[j] == y && y in init;
      TallyOrderAt(init, i, j);
      FirstIndexAppend(init, l, y);
    } else {
      assert Tally(langs).keys[j] == l && l !in init;
      FirstIndexAppend(init, l, l);
    }
  }

  /** One `[language, count]` pair of `Object.entries(languageCounts)`. */
  datatype Entry = Entry(language: string, count: nat)

  /** `Object.entries(languageCounts)`: the pairs in key order. */
  function Entries(c: Counts): (entries: seq<Entry>)
    requires WellFormed(c)
    ensures |entries| == |c.keys|
    ensures forall i :: 0 <= i < |c.keys| ==> entries[i] == Entry(c.keys[i], c.values[c.keys[i]])
  {
    seq(|c.keys|, i requires 0 <= i < |c.keys| => Entry(c.keys[i], c.values[c.keys[i]]))
  }

  /** Every count is at least the next one. */
  predicate SortedDesc(s: seq<Entry>) {
    forall i :: 0 < i < |s| ==> s[i - 1].count >= s[i].count
  }

  /** One step of a stable sort by decreasing count: `x`, which came before
      every entry of `s`, goes in front of the first entry it is not
      outnumbered by. */
  function InsertDesc(x: Entry, s: seq<Entry>): (r: seq<Entry>)
    ensures |r| == |s| + 1
    ensures multiset(r) == multiset(s) + multiset{x}
    ensures r[0] == x || (s != [] && r[0] == s[0])
  {
    if s == [] || s[0].count <= x.count then [x] + s
    else
      assert s == [s[0]] + s[1..];
      [s[0]] + InsertDesc(x, s[1..])
  }

  /** Inserting into a sorted sequence keeps it sorted. */
  lemma {:induction false} InsertDescSorted(x: Entry, s: seq<Entry>)
    requires SortedDesc(s)
    ensures SortedDesc(InsertDesc(x, s))
  {
    if s != [] && s[0].count > x.count {
      var t := InsertDesc(x, s[1..]);
      assert SortedDesc(s[1..]) by {
        assert forall i :: 0 <= i < |s| - 1 ==> s[1..][i] == s[i + 1];
      }
      InsertDescSorted(x, s[1..]);
      var r := [s[0]] + t;
      assert r[0].count >= r[1].count;
      assert forall i :: 1 <= i < |r| ==> r[i] == t[i - 1];
    }
  }

  /** `.sort((a, b) => b[1] - a[1])`: a stable sort by decreasing count. */
  function SortDesc(entries: seq<Entry>): (r: seq<Entry>)
    ensures |r| == |entries|
    ensures multiset(r) == multiset(entries)
    ensures SortedDesc(r)
  {
    if entries == [] then []
    else
      assert entries == [entries[0]] + entries[1..];
      InsertDescSorted(entries[0], SortDesc(entries[1..]));
      InsertDesc(entries[0], SortDesc(entries[1..]))
  }

  /** Index of the first entry with the largest count. */
  function FirstMax(entries: seq<Entry>): (m: nat)
    requires entries != []
    ensures m < |entries|
    ensures forall k :: 0 <= k < |entries| ==> entries[k].count <= entries[m].count
    ensures forall k :: 0 <= k < m ==> entries[k].count < entries[m].count
  {
    if |entries| == 1 then 0
    else
      var m := FirstMax(entries[1..]);
      if entries[1 + m].count <= entries[0].count then 0 else 1 + m
  }

  /** The stable sort puts the first of the most frequent entries first. */
  lemma {:induction false} SortHead(entries: seq<Entry>)
    requires entries != []
    ensures SortDesc(entries) != [] && SortDesc(entries)[0] == entries[FirstMax(entries)]
  {
    var s := SortDesc(entries[1..]);
    if |entries| > 1 {
      SortHead(entries[1..]);
    }
  }

  /** `.map(entry => entry[0])[0]` as written: the first language of the
      sorted entries, or nothing (`undefined`) when no page was counted. */
  function MajorityAsWritten(langs: seq<string>): (r: Option<string>)
    ensures r.None? <==> langs == []
  {
    var sorted := SortDesc(Entries(Tally(langs)));
    assert langs != [] ==> langs[0] in Tally(langs).values by {
      TallyCounts(langs);
    }
    if sorted == [] then
      None
    else
      Some(sorted[0].language)
  }

  /** The language of most pages; among equally frequent languages, the one
      on the earliest page. */
  ghost predicate IsFirstMostFrequent(langs: seq<string>, w: string) {
    && w in langs
    && forall l :: l in langs ==>
         && Count(langs, l) <= Count(langs, w)
         && (Count(langs, l) == Count(langs, w) ==> FirstIndex(langs, w) <= FirstIndex(langs, l))
  }

  /** The key of the first largest entry outnumbers every other key, and
      came first among those it ties with. */
  lemma WinnerBeats(langs: seq<string>, m: nat, i: nat)
    requires m < |Tally(langs).keys| && m == FirstMax(Entries(Tally(langs)))
    requires i < |Tally(langs).keys|
    ensures Count(langs, Tally(langs).keys[i]) <= Count(langs, Tally(langs).keys[m])
    ensures Count(langs, Tally(langs).keys[i]) == Count(langs, Tally(langs).keys[m])
            ==> FirstIndex(langs, Tally(langs).keys[m]) <= FirstIndex(langs, Tally(langs).keys[i])
  {
    var c := Tally(langs);
    var entries := Entries(c);
    TallyCounts(langs);
    assert entries[i].count <= entries[m].count;
    assert entries[i].count == Count(langs, c.keys[i]);
    assert entries[m].count == Count(langs, c.keys[m]);
    if m < i {
      TallyOrderAt(langs, m, i);
    } else if i < m {
      assert entries[i].count < entries[m].count;
    }
  }

  /** What the vote picks when there are pages to vote. */
  lemma MajorityIsFirstMostFrequent(langs: seq<string>)
    requires langs != []
    ensures IsFirstMostFrequent(langs, MajorityAsWritten(langs).value)
  {
    var c := Tally(langs);
    var entries := Entries(c);
    TallyCounts(langs);
    assert langs[0] in c.keys;
    SortHead(entries);
    var m := FirstMax(entries);
    var w := c.keys[m];
    assert MajorityAsWritten(langs).value == w;
    forall l | l in langs
      ensures Count(langs, l) <= Count(langs, w)
      ensures Count(langs, l) == Count(langs, w) ==> FirstIndex(langs, w) <= FirstIndex(langs, l)
    {
      var i :| 0 <= i < |c.keys| && c.keys[i] == l;
      WinnerBeats(langs, m, i);
    }
  }

  /** A scanned PDF with no pages leaves `language` undefined. */
  lemma NoPagesNoLanguage()
    ensures MajorityAsWritten([]) == None
  {
  }

  /** The vote with a language for every outcome: the first most frequent
      language, or the default when no page was counted. */
  function MajorityLanguage(langs: seq<string>): (lang: string)
    ensures langs == [] ==> lang == OcrService.DefaultLanguage
    ensures langs != [] ==> IsFirstMostFrequent(langs, lang)
  {
    match MajorityAsWritten(langs)
    case None => OcrService.DefaultLanguage
    case Some(w) =>
      MajorityIsFirstMostFrequent(langs);
      w
  }

  /** The vote's winner is unique: at most one language is the first most frequent. */
  lemma FirstMostFrequentUnique(langs: seq<string>, v: string, w: string)
    requires IsFirstMostFrequent(langs, v) && IsFirstMostFrequent(langs, w)
    ensures v == w
  {
    assert FirstIndex(langs, v) == FirstIndex(langs, w);
  }

  /** A single page decides the language. */
  lemma SinglePageLanguage(l: string)
    ensures MajorityLanguage([l]) == l
  {
    assert l in [l];
  }

  /** No page votes for a language with an empty name, so neither does the vote. */
  lemma MajorityNonEmpty(langs: seq<string>)
    requires forall k :: 0 <= k < |langs| ==> langs[k] != ""
    ensures MajorityLanguage(langs) != ""
  {
  }
}
